=== FILE: README.md ===
# Logentries token resolution and delivery, in Dafny

This project models two Ruby sources: a token resolver for the Logentries
log-management service (`test.rb`) and the Fluentd output plugin that ships
records to that service (`lib/fluent/plugin/out_logentries.rb`). Dafny then
proves properties of the model.

**The resolver** turns a record's logset-name and log-name fields into a
delivery token. It keeps a cache from logset name to a logset record
(`{"id", "name", "logs"}`). When a logset or log is missing it creates it
through the service's management API, and when a logset create is refused
as a bad request it re-reads the logset listing. A separate sweep picks the
remote logs that duplicate a cached log, so that they can be deleted.

**The plugin** picks a token for each record by matching a key against the
record's tag. It appends the token to the record's message and writes the
line to a cached TCP socket. A refused or timed-out connection is retried
at most twice, with the socket dropped and a backoff of 2 and then 4
seconds between attempts.

Layout:

- `wrappers.dfy`: `Option` and `Result`.
- `ruby_core.dfy`: the Ruby library behaviour the sources rely on:
  - `Array#first`;
  - a Hash filled by successive assignments, where the last one wins;
  - `String#index`;
  - `String#gsub(pattern, '')`.
- `remote.dfy`: the remote service as data:
  - the listings `GET /management/logsets` and `GET /management/logs`;
  - the possible replies to a POST;
  - the trace of calls a resolution makes;
  - the exceptions a resolution can end with.
- `provisioning.dfy`: the logset record as a class whose `logs` map is updated in place, the log filters, and log creation with token attachment.
- `token_cache.dfy`: the resolver as a class holding the cache, covering `populate_logsets`, `create_logset`, `get_token` and the duplicate sweep.
- `delivery.dfy`: the output plugin as a class holding the socket state, covering `get_token`, `send` and `write`.

How the outside world is represented:

- **The service.** A `Remote` value is one snapshot of what the service lists. A resolution reads every listing from the same snapshot.
- **POST outcomes.** The outcome of each POST is a parameter: created, `BadRequest`, or any other failure.
- **Calls made.** Each resolving method returns the calls it made, so "no request" is stated as an empty trace.
- **Socket writes.** The outcome of the n-th write attempt of a plugin instance is given by a function `env: nat -> Attempt`.

Two behaviours of the code that the model keeps as written:

- **The race check.** `create_log` passes the whole logset record to `log_race_created?` (test.rb:119), which compares each log's first logset id with that record (test.rb:97). A String never equals a Hash, so the check never fires and the adopt branch (`add_log_to_logset`) is unreachable from `create_log`: every `create_log` posts a new log. In the model:
  - the operand type `IdOperand` distinguishes an id string from a record;
  - `RaceCheckNeverMatchesRecord` proves the check is always false;
  - `CreateLog` has that branch as dead code.
- **The removal string.** The configured removal string is deleted wherever it occurs in the logset name (`gsub!`, test.rb:176), not only as a leading prefix; `DeleteAll` models exactly that.

## Model

| member | source | states |
|---|---|---|
| RubyCore.HashOfLastWins | test.rb:54-56 | A Hash filled by successive assignments has exactly the assigned keys, and each key maps to the value of the last assignment to it. |
| RubyCore.IndexFrom | lib/fluent/plugin/out_logentries.rb:54 | The result is the first position at or after `from` where the substring occurs, or nil when there is none. |
| RubyCore.Index | lib/fluent/plugin/out_logentries.rb:54 | `String#index`: non-nil exactly when the substring occurs, and then the first position where it occurs. |
| RubyCore.DeleteAllAbsent | test.rb:176 | `gsub(pattern, '')` leaves a string with no occurrence of the pattern unchanged. |
| RubyCore.DeleteAllOccurrence | test.rb:176 | The first occurrence of the pattern is deleted, and deletion continues after it: `DeleteAll(a + pat + b) == a + DeleteAll(b)` when the pattern does not start inside `a`. |
| RubyCore.DeleteAllPrefixExample | test.rb:176 | With removal string `remove-me-`, the name `remove-me-team1` resolves against `team1`. |
| RemoteService.LogsetById | test.rb:230-232 | The logset lookup by id returns a listed logset with that id, or nil only when no listed logset has that id. |
| Provisioning.ListedLogsLastWins | test.rb:49-58 | The `logs` hash built by `get_logset` has exactly the listed log names as keys, and each maps to `{"id"}` of the last listed log of that name. |
| Provisioning.ListedLogsHaveNoToken | test.rb:55 | No entry of a freshly listed logset carries a token. |
| Provisioning.IndexLogs | test.rb:54-56 | The loop of `get_logset` builds exactly that hash: the listed names as keys, each mapped to the last listed id with no token. |
| Provisioning.Logset.FromRaw | test.rb:49-58 | `get_logset` copies `id` and `name` from the raw logset, and its `logs` are the listed logs. |
| Provisioning.Logset.Empty | test.rb:75-78 | A logset record made from a created logset has the returned id and name and an empty `logs` hash. |
| Provisioning.LogsInLogset | test.rb:39-40 | The filter keeps exactly the listed logs that have a non-empty `logsets_info` whose first id equals the given id. |
| Provisioning.GetLogByName | test.rb:34-42 | `get_log_by_name`: the first listed log that is in the logset and has the name, or nil. |
| Provisioning.GetLogByNameFindsFirst | test.rb:34-42 | `get_log_by_name` is nil exactly when no listed log is in the logset with that name; otherwise it returns the first listed log that is. |
| Provisioning.LogRaceCreated | test.rb:89-99 | `log_race_created?` is true exactly when some listed log is in the logset with that name. |
| Provisioning.RaceCheckAgreesWithLookup | test.rb:34-42 | The race check holds exactly when `get_log_by_name` finds a log. |
| Provisioning.RaceCheckNeverMatchesRecord | test.rb:117-120 | Given the logset record instead of its id, the race check is false for every listing. |
| Provisioning.AddLogToLogset | test.rb:109-115 | The method makes one log listing. When no log is found it fails as a nil dereference, with `logs` unchanged. Otherwise it stores `{token: first of the log's tokens, id}` under the name and changes no other entry. |
| Provisioning.CreateLog | test.rb:117-142 | The race check never adopts, so the method posts the log in the record's logset. On success it stores `{token: first token, id}` from the reply under the name and changes no other entry. On failure it raises, with `logs` unchanged. |
| Provisioning.TokenExists | test.rb:144-151 | `log_token_exists?` is false for a nil logset or a nil log name. Otherwise it is true exactly when the name is in `logs` and its entry carries a token. |
| Provisioning.ListedLogsetHasNoToken | test.rb:144-151 | For a logset record whose `logs` were just listed, or are empty, `log_token_exists?` is false for every name. |
| Provisioning.GetOrCreateLogToken | test.rb:144-160 | When `log_token_exists?` holds, the method returns the cached entry with no request and no change. Otherwise it creates the log: a created reply yields `{token: first of the reply's tokens, id: the reply's id}`, and any other reply raises `RequestFailed`. Any entry it returns carries a token and is the one stored under the name. |
| TokenCache.StringifiedLastWins | test.rb:162-168 | The stringified hash has exactly the stringified keys, and each maps to the value of the last key with that string. |
| TokenCache.TransformKeys | test.rb:162-168 | `transform_keys` returns the stringified hash: keys `to_s` of the input's keys, with the same values. |
| TokenCache.Populated | test.rb:12-21 | The cache after `populate_logsets`: each listed logset, in listing order, is added as a `get_logset` record under its name unless that name is already cached. |
| TokenCache.PopulatedKeepsCached | test.rb:18-20 | `populate_logsets` never overwrites a cached entry. |
| TokenCache.PopulatedKeys | test.rb:18-20 | After `populate_logsets`, the cache holds exactly the previously cached names plus the listed names. |
| TokenCache.PopulatedFirstWins | test.rb:18-20 | A name that `populate_logsets` adds gets the record of the first listed logset with that name. |
| TokenCache.PopulatedAddsNoToken | test.rb:18-20 | No log of a record that `populate_logsets` adds carries a token. |
| TokenCache.DuplicatesOf | test.rb:237-238 | The select/reject pair keeps exactly the listed logs with the cached log's name and another id. |
| TokenCache.SweepTargets | test.rb:227-240 | What the sweep deletes: when the service lists every cached logset, the union over the cached logsets and their cached log names of the listed logs with that name and another id; otherwise the sweep raises. |
| TokenCache.SweepLeavesCachedIds | test.rb:234-239 | After one logset's deletions, every log it lists under a cached name has the cached id. |
| TokenCache.SweepKeepsOnlyCachedIds | test.rb:227-240 | Across the whole sweep, every log that a cached logset lists under a cached log name either has the cached id or is among the ids the sweep deletes. |
| TokenCache.SweepSparesCachedLogs | test.rb:234-239 | In one logset's pass: when its listing never gives one of its cached ids to a log of another name, the pass deletes none of that logset's cached logs. |
| TokenCache.SweepLeavesOne | test.rb:234-239 | When ids are unique and the cached log is listed, exactly that log remains under its name after this logset's pass. |
| TokenCache.SweepSparesAllCachedLogs | test.rb:227-240 | Across the whole sweep, no cached log is deleted when no cached logset lists a cached id (of any logset) under a cached name of its own that caches another id. |
| TokenCache.SweepDeletesListedElsewhere | test.rb:237-238 | The converse: a cached log is deleted as soon as some cached logset, the same or another, lists its id under a cached name of its own that caches a different id. |
| TokenCache.SweepDeletesAnotherLogsetsLog | test.rb:227-240 | The sweep can delete a log another logset caches: A caches `app` as X, B caches `app` as Y, and B's listing also has X under `app`. B's pass deletes X. |
| TokenCache.Resolution | test.rb:177-184 | The result and the requests of resolving a logset and log from the cache: a cached token with no request; for a cached logset, a log listing and the log POST, giving its first token or `RequestFailed`; for an uncached name, the logset POST, then by its reply the created logset, a listing and the re-read logset (or 'Unable to create logset'), or `RequestFailed`. |
| TokenCache.ResolvedView | test.rb:177-184 | The cache after such a resolution. For an uncached name, a created logset is cached with no logs, a `BadRequest` caches every name `populate_logsets` adds, and any other reply changes nothing. Then, if the logset is cached, `get_or_create_log_token` acts on it: a cached token changes nothing, a created log is stored as `{token: first token, id}`, and a failed POST changes nothing. |
| TokenCache.ResolutionCachedIffNoRequest | test.rb:177-184 | A resolution makes no request exactly when the cache already holds a token for that logset and log (`log_token_exists?`). |
| TokenCache.ResolutionReturnsPostedToken | test.rb:177-184 | When the token is not cached, a successful resolution returns the first token of the created log, and its last request is the POST of that log. |
| TokenCache.ResolutionPostsUncachedLogset | test.rb:177-182 | A resolution posts the logset exactly when its name is not cached, and then that POST is its first request. |
| TokenCache.ResolvedViewKeepsOthers | test.rb:177-184 | The cache after a resolution keeps every other cached entry as it was. After a `BadRequest` for the logset it also holds every name `populate_logsets` refreshed (test.rb:80), even when 'Unable to create logset' is raised. |
| TokenCache.ResolvedViewTouchesOneLog | test.rb:153-160 | In a cached logset, a resolution keeps the logset's id and every other log entry, and adds at most the entry of the requested log. A created log is stored as `{token: its first token, id: its id}` (test.rb:139). |
| TokenCache.ResolvedViewHoldsAnswer | test.rb:177-184 | A successful resolution leaves the returned token cached under the logset and log. A failed one leaves the cache as the logset lookup left it: a created or refreshed logset stays cached (test.rb:181 runs before test.rb:184), with its logs unchanged by the failed log POST. |
| TokenCache.ResolutionThenCached | test.rb:171-188 | Resolving again from the cache that a successful resolution left returns the same token with no request and changes nothing, whatever the service would answer. |
| TokenCache.Resolver.constructor | test.rb:6 | The resolver starts with the configured field names, the removal string and an empty cache. |
| TokenCache.Resolver.PopulateLogsets | test.rb:12-21 | The method lists the logsets once and adds a fresh record for each listed name not yet cached. Existing entries keep the same record objects, and the cache becomes `Populated(old cache, listing)`. |
| TokenCache.Resolver.AddListed | test.rb:19 | A name not yet cached gets a fresh record built by `get_logset` from the listed logset; no other entry changes. |
| TokenCache.Resolver.Store | test.rb:181 | `@cache[name] = logset` maps the name to the record and changes no other entry. |
| TokenCache.Resolver.CreateLogset | test.rb:61-87 | A cached name is returned with no request. Otherwise the method posts the logset: a created logset yields a fresh empty record, which is not cached here. On `BadRequest` the method re-reads the listing and returns the now-cached record, or raises 'Unable to create logset'. Any other failure raises. |
| TokenCache.Resolver.CacheNewLogset | test.rb:179-182 | An uncached name is created with `create_logset` and the record is cached under it. A created logset is cached with the reply's id and name after one POST. On `BadRequest` the listing is read once more: a name now listed is cached with the first listed logset's id, otherwise 'Unable to create logset' is raised. Any other reply raises `RequestFailed`. A record it caches has no log with a token. The cache becomes `WithLogset` of the cache before: the created record with no logs, the refreshed cache after a `BadRequest` (also when it raises), or unchanged after any other reply. |
| TokenCache.Resolver.Resolve | test.rb:177-184 | The result and the requests made are exactly `Resolution` of the cache before: a cached token with no request; for a cached logset without the token, a log listing and the log POST; for an uncached name, the logset POST first, then (after a `BadRequest`, a logset listing and) a log listing (`GET /management/logs`) and the log POST into the created or listed logset, or the error. The cache afterwards is exactly `ResolvedView` of the cache before: the created or refreshed logset is cached, and a created log is stored as `{token, id}` from the reply. A successful resolution leaves the logset cached under the key with a tokened entry for the log whose token is returned. Entries cached before keep their records, and their logs, except for the requested log of the resolved logset. After a `BadRequest` the names `populate_logsets` adds are cached as well. A created logset holds exactly the created log, or no log when the log POST failed (`CreatedLogs`); a failed resolution of a cached logset leaves its logs unchanged. |
| TokenCache.Resolver.ResolveNew | test.rb:179-184 | For an uncached name, the result and requests are `Resolution` and the cache becomes `ResolvedView`. The logset POST is the first request, and a created logset is cached with the reply's id and name and holds exactly the created log, or none when the log POST failed. |
| TokenCache.Resolver.ResolveLog | test.rb:184 | `get_or_create_log_token` on the cached record. A cached token is returned with no request; otherwise the log listing and the log POST are made, and the result is the posted log's first token or `RequestFailed`. Only this record's entry for the log changes, as `WithLogToken` states; after a failed log POST its logs are unchanged. |
| TokenCache.Resolver.GetToken | test.rb:171-188 | A record lacking either configured field yields nil, with no request and no change. Otherwise the key is the logset name with every occurrence of the removal string deleted, and the result, the requests and the cache afterwards are exactly `Resolution` and `ResolvedView` of that key and the log name, as for `Resolve`. The resolved logset keeps its record and its other log entries. |
| TokenCache.Resolver.LogsetDuplicateIds | test.rb:234-239 | The loop over one logset's cached logs collects exactly the ids of the listed logs that bear a cached name and another id. |
| TokenCache.Resolver.DeleteDuplicateLogs | test.rb:227-240 | The method returns exactly the ids `SweepTargets` selects: for every cached logset and cached log name, the listed logs of that name whose id differs from the cached one. A cached logset the service does not list makes the sweep raise. The cache is not modified. |
| TokenCache.GetTokenTwice | test.rb:171-188 | Once `get_token` has resolved a record, resolving a record with the same field values again returns the same token with no request. |
| Delivery.GetToken | lib/fluent/plugin/out_logentries.rb:52-60 | `get_token`: the token pairs are tried in hash order, and the value of the first key that occurs in the tag is returned, or nil. |
| Delivery.GetTokenFindsFirst | lib/fluent/plugin/out_logentries.rb:52-60 | The result is nil exactly when no key occurs in the tag; otherwise it is the value of the first key, in hash order, that occurs. |
| Delivery.SendFrom | lib/fluent/plugin/out_logentries.rb:78-92 | The outcome and attempt count of `send` from a given attempt and retry count: a written attempt ends `Done`; another error ends `Raised`; a refused or timed-out one is retried while fewer than 2 retries were made, and ends `ConnectionFailure(retries)` otherwise. |
| Delivery.SendAttemptsBounded | lib/fluent/plugin/out_logentries.rb:79-91 | `send` makes at least 1 and at most 3 write attempts. |
| Delivery.SendFailsAfterThreeAttempts | lib/fluent/plugin/out_logentries.rb:82-90 | `send` raises `ConnectionFailure` exactly when three attempts in a row are refused or time out, and it then reports 2 retries after 3 attempts. |
| Delivery.SendFirstAttemptDecides | lib/fluent/plugin/out_logentries.rb:81-82 | A successful first write makes exactly one attempt, and any error other than refused or timed out propagates after that one attempt. |
| Delivery.Payload | lib/fluent/plugin/out_logentries.rb:66-75 | The line the block sends for one event: none for a record that is not a Hash, a tag with no matching token, or a record without `"message"`; otherwise `message + ' ' + token`. |
| Delivery.WriteFrom | lib/fluent/plugin/out_logentries.rb:66-75 | `write` over the chunk's lines from an event and an attempt number: events without a line are skipped, each line is sent with `SendFrom`, and the first send that does not end `Done` stops the walk with its outcome, its event index and the attempts made. |
| Delivery.SentAtMostOnePerEvent | lib/fluent/plugin/out_logentries.rb:66-75 | Sending each event's line, if it has one, sends at most one line per event. |
| Delivery.SentHasEvent | lib/fluent/plugin/out_logentries.rb:66-75 | Every line sent is the line of one of the events; for a chunk, that is `message + ' ' + token` of an event that is a Hash, has a matching token and has a `"message"`. |
| Delivery.EventSent | lib/fluent/plugin/out_logentries.rb:66-75 | Every event that has a line has it sent. |
| Delivery.SentCons | lib/fluent/plugin/out_logentries.rb:66-75 | The lines sent for a sequence of events are those of its first event followed by those of the rest. |
| Delivery.WriteFromEnds | lib/fluent/plugin/out_logentries.rb:66-75 | `write` ends `Done` exactly when it gets through the chunk. Otherwise it stops at an event that has a line, whose send failed. It makes at most 3 write attempts per event. |
| Delivery.WriteAllWritten | lib/fluent/plugin/out_logentries.rb:66-75 | When every write attempt succeeds, `write` gets through the whole chunk, with exactly one attempt per line sent. |
| Delivery.SocketReused | lib/fluent/plugin/out_logentries.rb:31 | When every send succeeded at its first attempt, a socket cached before is reused with none opened; with none cached, exactly one is opened and kept. |
| Delivery.WriteAllWrittenReusesSocket | lib/fluent/plugin/out_logentries.rb:63-92 | A chunk whose every write attempt succeeds is written over the one cached socket: with a socket cached before, no socket is opened; otherwise the first attempt opens the only one. |
| Delivery.LogentriesOutput.constructor | lib/fluent/plugin/out_logentries.rb:3 | A new plugin instance has no socket, and nothing opened, attempted or delivered. |
| Delivery.LogentriesOutput.Client | lib/fluent/plugin/out_logentries.rb:30-32 | `client` returns the cached socket, or opens one and caches it when there is none. |
| Delivery.LogentriesOutput.Puts | lib/fluent/plugin/out_logentries.rb:81 | One write attempt: its outcome is the next one in `env`, and only a successful write delivers the data. |
| Delivery.LogentriesOutput.Send | lib/fluent/plugin/out_logentries.rb:78-92 | The outcome and the attempt count are those of `SendFrom`, with at most 3 attempts. The backoffs slept are `[2, 4]` cut to the number of retries. The data is delivered only on success. Each retry drops the socket, so it opens one new socket. Afterwards a socket is cached: the last one opened when `send` opened any, otherwise the socket cached before. In the code this holds only when every failing attempt got a socket; see "Left out". |
| Delivery.LogentriesOutput.WriteRecord | lib/fluent/plugin/out_logentries.rb:66-75 | An event that is not a Hash, has no matching token or has no `"message"` is skipped, with no attempt and nothing delivered. Otherwise its line is sent: the outcome and the attempt count are `SendFrom`'s, and the line is delivered exactly when the send succeeds. A skipped event leaves the cached socket and the socket count unchanged; a sent one leaves a socket cached, with one socket opened per retry plus one when none was cached. The cached socket is the last one opened, or the one cached before when none was opened. |
| Delivery.LogentriesOutput.Write | lib/fluent/plugin/out_logentries.rb:63-76 | The outcome, the event where `write` stops and the number of write attempts are exactly `WriteFrom` of the chunk's lines and the attempt outcomes in `env`. The delivered lines are exactly the lines of the events processed, in order. `write` finishes the chunk unless a send fails, and it stops at the event whose send failed, which had a line. The sockets follow `SocketsAccounted`: with no attempt the socket and count are unchanged; otherwise a socket is cached, one socket is opened per retry plus one when none was cached before, and the cached one is the last opened, or the one cached before. |

## Left out

- The LRU/TTL eviction and thread safety of `LruRedux::TTL::ThreadSafeCache` (test.rb:6) are not modelled. The cache is a plain map that never evicts.
- The jitter `sleep rand(0..0.1)` in `log_race_created?` is not modelled; it only affects timing.
- `Send` does not model the real time spent sleeping. It returns the backoff values it would sleep (`2**retries`), not the time taken.
- Failing GET requests are not modelled. A listing always answers from the `Remote` snapshot.
- `GET /management/logsets/{id}` is the only lookup whose failure is modelled: an unknown id makes the sweep raise.
- `DeleteDuplicateLogs` returns the set of ids `delete_logs` would delete. It does not model the DELETE requests themselves, their order, or a DELETE that fails part-way (test.rb:217-223).
- `get_log_token` and `get_log_by_id` (test.rb:28-32, 44-47) are not modelled. Nothing in the core calls them, and `get_raw_log` is undefined.
- `format`/msgpack, `byebug`, `puts` logging and the `log.warn` before each retry in `send` (out_logentries.rb:86) are not modelled.
- `process` and `send_logentries` are not modelled; they are a POST of the message plus logging.
- The script lines at the end of test.rb are not modelled.
- `generate_token` (a directory scan) is not modelled. It also appends `"*.token"` to `@path` in place (`path << "*.token"`, out_logentries.rb:43), so each later `write` globs a longer pattern; the model takes the token list as a parameter of each `write` and does not capture that drift.
- TCP socket creation and `close`, plugin registration and `configure` are not modelled. The token list and the outcomes of write attempts are parameters instead.
- Delivery.LogentriesOutput.Send: a failure to open the socket and a failure to write to it are one kind of attempt outcome. Both are inside the same `begin`/`rescue`, so the outcome, the retries and the backoffs are the same. The socket state is not: in `@_socket ||= TCPSocket.new @host, @port` (out_logentries.rb:31) nothing is assigned when `new` raises. So after an attempt that fails on connecting, the code has opened no socket and caches none. The model counts one socket opened and caches it. The `sockets` count and the socket cached after `send` are exact only when every failing attempt got a socket.
- Record values are modelled as strings. The in-place `<<` on `record["message"]` (out_logentries.rb:73) mutates the caller's record; only the line it builds is modelled.
- TokenCache.Resolver.GetToken: the in-place `gsub!` on the caller's record is not modelled; only the resulting key is.
- TokenCache.GetTokenTwice: the second call is given a record with the same field values as the first. In the code, `gsub!` deletes the removal string from the caller's own record, so a second call on the very same Ruby object deletes it again. With removal string `remove-me-` and logset name `remove-remove-me-me-team1`, the first call resolves `remove-me-team1` and the second resolves `team1`.
- Response bodies that cannot be parsed, and JSON fields that are missing, are not modelled.
- A nil token stored when a remote log has no tokens is modelled. A missing `tokens` key is not.
- test/plugin/test_logentries.rb is not part of this model. It stubs HTTP for a class that is not among these sources.

=== FILE: delivery.dfy ===
/**
 * The buffered output plugin of lib/fluent/plugin/out_logentries.rb: the
 * choice of a token by tag, the bounded-retry send over a cached socket,
 * and the per-record filtering of write.
 */
module Delivery {
  import opened Wrappers
  import opened RubyCore

  // ---------------------------------------------------------------------
  // Choosing a token

  /** key is a substring of tag. */
  ghost predicate Occurs(key: string, tag: string)
  {
    exists k: nat :: OccursAt(key, tag, k)
  }

  /** tokens[i] is the first token whose key occurs in the tag. */
  ghost predicate FirstOccurring(tag: string, tokens: seq<(string, string)>, i: int)
  {
    0 <= i < |tokens| && Occurs(tokens[i].0, tag) &&
    forall j :: 0 <= j < i ==> !Occurs(tokens[j].0, tag)
  }

  /**
   * get_token: the value of the first key, in the hash's order, that
   * occurs in the tag, or nil when no key does.
   */
  function GetToken(tag: string, tokens: seq<(string, string)>): Option<string>
  {
    if tokens == [] then None
    else if Index(tag, tokens[0].0) != None then Some(tokens[0].1)
    else GetToken(tag, tokens[1..])
  }

  /** GetToken is nil exactly when no key occurs, and otherwise the first occurring key's value. */
  lemma {:induction false} GetTokenFindsFirst(tag: string, tokens: seq<(string, string)>)
    ensures GetToken(tag, tokens).None? <==> forall i :: 0 <= i < |tokens| ==> !Occurs(tokens[i].0, tag)
    ensures GetToken(tag, tokens).Some? ==>
      exists i :: FirstOccurring(tag, tokens, i) && GetToken(tag, tokens).value == tokens[i].1
  {
    if tokens == [] {
    } else if Index(tag, tokens[0].0) != None {
      assert FirstOccurring(tag, tokens, 0);
    } else {
      GetTokenFindsFirst(tag, tokens[1..]);
      var r := GetToken(tag, tokens[1..]);
      assert forall i :: 0 < i < |tokens| ==> tokens[i] == tokens[1..][i - 1];
      if r.Some? {
        var i :| FirstOccurring(tag, tokens[1..], i) && r.value == tokens[1..][i].1;
        assert FirstOccurring(tag, tokens, i + 1);
      }
    }
  }

  // ---------------------------------------------------------------------
  // Sending with bounded retry

  /** The outcome of one `client.puts data`. */
  datatype Attempt =
    | Written      // the line was written
    | Refused      // Errno::ECONNREFUSED
    | TimedOut     // Errno::ETIMEDOUT
    | OtherError   // any other exception

  /** The errors send retries. */
  predicate Transient(a: Attempt)
  {
    a.Refused? || a.TimedOut?
  }

  /** How send ends: written, ConnectionFailure after some retries, or another error raised. */
  datatype Status = Done | ConnectionFailure(retries: nat) | Raised

  /** Integer#** with base 2. */
  function Pow2(e: nat): nat
  {
    if e == 0 then 1 else 2 * Pow2(e - 1)
  }

  /**
   * How send ends, and how many write attempts it makes, when its
   * attempts from number `at` on turn out as env says and `retries`
   * retries have been made so far.
   */
  function SendFrom(env: nat -> Attempt, at: nat, retries: nat): (Status, nat)
    requires retries <= 2
    decreases 2 - retries
  {
    match env(at)
    case Written => (Done, 1)
    case OtherError => (Raised, 1)
    case _ =>
      if retries < 2 then
        var (status, n) := SendFrom(env, at + 1, retries + 1);
        (status, n + 1)
      else (ConnectionFailure(retries), 1)
  }

  /** send makes at least one and at most 3 - retries more attempts. */
  lemma {:induction false} SendAttemptsBounded(env: nat -> Attempt, at: nat, retries: nat)
    requires retries <= 2
    ensures 1 <= SendFrom(env, at, retries).1 <= 3 - retries
    decreases 2 - retries
  {
    if Transient(env(at)) && retries < 2 {
      SendAttemptsBounded(env, at + 1, retries + 1);
    }
  }

  /**
   * send raises ConnectionFailure exactly when its three attempts all fail
   * with a refused or timed-out connection, and then reports 2 retries
   * after 3 attempts.
   */
  lemma SendFailsAfterThreeAttempts(env: nat -> Attempt, at: nat)
    ensures SendFrom(env, at, 0).0.ConnectionFailure? <==>
      Transient(env(at)) && Transient(env(at + 1)) && Transient(env(at + 2))
    ensures SendFrom(env, at, 0).0.ConnectionFailure? ==> SendFrom(env, at, 0) == (ConnectionFailure(2), 3)
  {
    if Transient(env(at)) {
      if Transient(env(at + 1)) {
        assert SendFrom(env, at + 1, 1) == (SendFrom(env, at + 2, 2).0, SendFrom(env, at + 2, 2).1 + 1);
      }
    }
  }

  /**
   * Only a refused or timed-out connection is retried: any other outcome
   * of the first attempt ends send after that one attempt.
   */
  lemma SendFirstAttemptDecides(env: nat -> Attempt, at: nat)
    ensures env(at).Written? ==> SendFrom(env, at, 0) == (Done, 1)
    ensures env(at).OtherError? ==> SendFrom(env, at, 0) == (Raised, 1)
  {
  }

  // ---------------------------------------------------------------------
  // Writing a chunk

  /** A record of a chunk: a Hash (its string fields), or any other value. */
  datatype Record = HashRecord(fields: map<string, string>) | NotHash

  /** A (tag, record) pair of a chunk. */
  datatype Event = Event(tag: string, record: Record)

  /** What write sends for one event: the message, a space and the token, if there is one. */
  function Payload(e: Event, tokens: seq<(string, string)>): Option<string>
  {
    match e.record
    case NotHash => None
    case HashRecord(fields) =>
      match GetToken(e.tag, tokens)
      case None => None
      case Some(token) =>
        if "message" in fields then Some(Line(fields["message"], token)) else None
  }

  /** The line write sends: the message, a space and the token. */
  function Line(message: string, token: string): string
  {
    message + " " + token
  }

  /** What write sends for each event of a chunk, in order. */
  function Lines(chunk: seq<Event>, tokens: seq<(string, string)>): seq<Option<string>>
  {
    seq(|chunk|, i requires 0 <= i < |chunk| => Payload(chunk[i], tokens))
  }

  function AsSeq<T>(o: Option<T>): seq<T>
  {
    if o.Some? then [o.value] else []
  }

  /** The lines sent, in order, when each event's line is sent. */
  function Sent(lines: seq<Option<string>>): seq<string>
  {
    if lines == [] then []
    else Sent(lines[..|lines| - 1]) + AsSeq(lines[|lines| - 1])
  }

  /** Sending one more event's line extends what was sent. */
  lemma SentSnoc(lines: seq<Option<string>>, i: nat)
    requires i < |lines|
    ensures Sent(lines[..i + 1]) == Sent(lines[..i]) + AsSeq(lines[i])
  {
    assert lines[..i + 1][..i] == lines[..i];
  }

  /** write sends at most one line per event. */
  lemma {:induction false} SentAtMostOnePerEvent(lines: seq<Option<string>>)
    ensures |Sent(lines)| <= |lines|
  {
    if lines != [] {
      SentAtMostOnePerEvent(lines[..|lines| - 1]);
    }
  }

  /** Every line sent is the line of one of the events. */
  lemma {:induction false} SentHasEvent(lines: seq<Option<string>>, m: string)
    requires m in Sent(lines)
    ensures exists i :: 0 <= i < |lines| && lines[i] == Some(m)
  {
    var k := |lines| - 1;
    assert Sent(lines) == Sent(lines[..k]) + AsSeq(lines[k]);
    if m in Sent(lines[..k]) {
      SentHasEvent(lines[..k], m);
      var i :| 0 <= i < k && lines[..k][i] == Some(m);
      assert lines[i] == Some(m);
    } else {
      assert lines[k] == Some(m);
    }
  }

  /** Every event that has a line has it sent. */
  lemma {:induction false} EventSent(lines: seq<Option<string>>, i: nat)
    requires i < |lines| && lines[i].Some?
    ensures lines[i].value in Sent(lines)
  {
    var k := |lines| - 1;
    assert Sent(lines) == Sent(lines[..k]) + AsSeq(lines[k]);
    if i < k {
      assert lines[..k][i] == lines[i];
      EventSent(lines[..k], i);
    }
  }

  /** The lines sent for a chunk are those of its first event followed by those of the rest. */
  lemma {:induction false} SentCons(lines: seq<Option<string>>)
    requires lines != []
    ensures Sent(lines) == AsSeq(lines[0]) + Sent(lines[1..])
    decreases |lines|
  {
    var k := |lines| - 1;
    if k > 0 {
      SentCons(lines[..k]);
      assert lines[..k][1..] == lines[1..][..k - 1];
    } else {
      assert lines[1..] == [];
    }
  }

  /**
   * How write goes on from event `from` when its next write attempt is
   * number `at`: how it ends, the event it stops at, and how many write
   * attempts it makes.  Events without a line are skipped; a send that
   * does not end in Done ends write at its event.
   */
  function WriteFrom(lines: seq<Option<string>>, env: nat -> Attempt, from: nat, at: nat): (Status, nat, nat)
    requires from <= |lines|
    decreases |lines| - from
  {
    if from == |lines| then (Done, |lines|, 0)
    else if lines[from].None? then WriteFrom(lines, env, from + 1, at)
    else
      var sent := SendFrom(env, at, 0);
      if sent.0.Done? then
        var rest := WriteFrom(lines, env, from + 1, at + sent.1);
        (rest.0, rest.1, rest.2 + sent.1)
      else (sent.0, from, sent.1)
  }

  /**
   * One step of write: after event `from` has been skipped or sent with
   * `sent` as the outcome and `after` as the next attempt number, write
   * either goes on from the next event or has stopped there.
   */
  lemma WriteFromStep(lines: seq<Option<string>>, env: nat -> Attempt, from: nat, at: nat,
                      sent: Status, after: nat)
    requires from < |lines|
    requires lines[from].None? ==> sent == Done && after == at
    requires lines[from].Some? ==> sent == SendFrom(env, at, 0).0 && after == at + SendFrom(env, at, 0).1
    ensures after >= at
    ensures sent.Done? ==>
      WriteFrom(lines, env, from, at).0 == WriteFrom(lines, env, from + 1, after).0 &&
      WriteFrom(lines, env, from, at).1 == WriteFrom(lines, env, from + 1, after).1 &&
      WriteFrom(lines, env, from, at).2 == WriteFrom(lines, env, from + 1, after).2 + (after - at)
    ensures !sent.Done? ==> WriteFrom(lines, env, from, at) == (sent, from, after - at)
  {
  }

  /**
   * write ends Done exactly when it gets through the chunk, and otherwise
   * stops at an event that has a line; it makes at most 3 attempts per
   * remaining event.
   */
  lemma {:induction false} WriteFromEnds(lines: seq<Option<string>>, env: nat -> Attempt, from: nat, at: nat)
    requires from <= |lines|
    ensures var (status, stop, n) := WriteFrom(lines, env, from, at);
      from <= stop <= |lines| && (status.Done? <==> stop == |lines|) &&
      (stop < |lines| ==> lines[stop].Some?) &&
      n <= 3 * (|lines| - from)
    decreases |lines| - from
  {
    if from < |lines| {
      if lines[from].None? {
        WriteFromEnds(lines, env, from + 1, at);
      } else {
        SendAttemptsBounded(env, at, 0);
        var sent := SendFrom(env, at, 0);
        if sent.0.Done? {
          WriteFromEnds(lines, env, from + 1, at + sent.1);
        }
      }
    }
  }

  /**
   * When every write attempt from `at` on succeeds, write gets through the
   * whole chunk with one attempt per line sent.
   */
  lemma {:induction false} WriteAllWritten(lines: seq<Option<string>>, env: nat -> Attempt, from: nat, at: nat)
    requires from <= |lines|
    requires forall n: nat :: at <= n ==> env(n).Written?
    ensures WriteFrom(lines, env, from, at) == (Done, |lines|, |Sent(lines[from..])|)
    decreases |lines| - from
  {
    if from < |lines| {
      SentCons(lines[from..]);
      assert lines[from..][1..] == lines[from + 1..];
      if lines[from].None? {
        WriteAllWritten(lines, env, from + 1, at);
      } else {
        assert env(at).Written?;
        WriteAllWritten(lines, env, from + 1, at + 1);
      }
    } else {
      assert lines[from..] == [];
    }
  }

  /**
   * The sockets after some sends, from socket0 cached, count0 sockets opened
   * and tried0 attempts made, to socket, count and tried, over `sends` calls of
   * send, each making at least one attempt: with no attempt nothing
   * changes; otherwise a socket is cached, and
   * it is the last one opened, or the first one when none was opened.
   * `@_socket ||=` opens one when none is cached, and every retry drops the
   * socket, so one socket is opened per attempt beyond the first of each
   * send, plus one when none was cached.
   */
  predicate SocketsAccounted(socket0: Option<nat>, count0: nat, tried0: nat,
                             socket: Option<nat>, count: nat, tried: nat, sends: nat)
  {
    tried0 + sends <= tried &&
    (tried == tried0 ==> socket == socket0 && count == count0) &&
    (tried > tried0 ==> socket.Some?) &&
    socket == (if count == count0 then socket0 else Some(count - 1)) &&
    count == count0 + (if socket0.None? && tried > tried0 then 1 else 0) + (tried - tried0) - sends
  }

  /**
   * When every send succeeded at its first attempt, the socket cached
   * before is reused throughout, and at most one socket is opened.
   */
  lemma SocketReused(socket0: Option<nat>, count0: nat, tried0: nat,
                     socket: Option<nat>, count: nat, tried: nat, sends: nat)
    requires SocketsAccounted(socket0, count0, tried0, socket, count, tried, sends)
    requires tried - tried0 == sends
    ensures socket0.Some? ==> socket == socket0 && count == count0
    ensures socket0.None? && tried > tried0 ==> socket == Some(count0) && count == count0 + 1
  {
  }

  /**
   * write over a chunk whose every attempt succeeds, with the sockets as
   * write leaves them: the cached socket serves the whole chunk, and the
   * only socket opened is the first one, when none was cached.
   */
  lemma WriteAllWrittenReusesSocket(lines: seq<Option<string>>, env: nat -> Attempt, at: nat,
                                    status: Status, processed: nat,
                                    socket0: Option<nat>, count0: nat, socket: Option<nat>, count: nat, tried: nat)
    requires forall n: nat :: at <= n ==> env(n).Written?
    requires (status, processed, tried - at) == WriteFrom(lines, env, 0, at)
    requires processed + (if status.Done? then 0 else 1) <= |lines|
    requires SocketsAccounted(socket0, count0, at, socket, count, tried,
      |Sent(lines[..if status.Done? then processed else processed + 1])|)
    ensures socket0.Some? ==> socket == socket0 && count == count0
    ensures socket0.None? ==> count == count0 + (if tried > at then 1 else 0)
    ensures socket0.None? && tried > at ==> socket == Some(count0)
  {
    WriteAllWritten(lines, env, 0, at);
    assert lines[0..] == lines;
    assert lines[..|lines|] == lines;
    SocketReused(socket0, count0, at, socket, count, tried, |Sent(lines)|);
  }

  /**
   * The output's connection state: the cached socket (a handle numbered in
   * opening order), how many sockets were opened, how many write attempts
   * were made, and what the service accepted.
   */
  class LogentriesOutput {
    var socket: Option<nat>
    var sockets: nat
    var attempts: nat
    var delivered: seq<string>

    constructor ()
      ensures socket == None && sockets == 0 && attempts == 0 && delivered == []
    {
      socket, sockets, attempts, delivered := None, 0, 0, [];
    }

    /** client: the cached socket, opened on first use. */
    method Client() returns (s: nat)
      modifies this
      ensures socket == Some(s)
      ensures old(socket).Some? ==> s == old(socket).value && sockets == old(sockets)
      ensures old(socket).None? ==> s == old(sockets) && sockets == old(sockets) + 1
      ensures attempts == old(attempts) && delivered == old(delivered)
    {
      if socket.None? {
        socket := Some(sockets);
        sockets := sockets + 1;
      }
      s := socket.value;
    }

    /** client.puts data: one write attempt, which turns out as env says. */
    method Puts(data: string, env: nat -> Attempt) returns (outcome: Attempt)
      modifies this
      ensures outcome == env(old(attempts)) && attempts == old(attempts) + 1
      ensures delivered == if outcome.Written? then old(delivered) + [data] else old(delivered)
      ensures socket == old(socket) && sockets == old(sockets)
    {
      outcome := env(attempts);
      attempts := attempts + 1;
      if outcome.Written? {
        delivered := delivered + [data];
      }
    }

    /**
     * send: write the data, retrying a refused or timed-out connection at
     * most twice; before each retry the socket is dropped and send sleeps
     * 2 ** retries (2, then 4).  Other errors are raised at once.
     */
    method Send(data: string, env: nat -> Attempt) returns (status: Status, sleeps: seq<nat>)
      modifies this
      ensures (status, attempts - old(attempts)) == SendFrom(env, old(attempts), 0)
      ensures old(attempts) < attempts <= old(attempts) + 3
      ensures sleeps == [2, 4][..attempts - old(attempts) - 1]
      ensures delivered == if status.Done? then old(delivered) + [data] else old(delivered)
      ensures sockets == old(sockets) + (if old(socket).None? then 1 else 0) + (attempts - old(attempts) - 1)
      ensures socket.Some?
      ensures old(socket).None? || attempts - old(attempts) > 1 ==> socket == Some(sockets - 1)
      ensures old(socket).Some? && attempts - old(attempts) == 1 ==> socket == old(socket)
    {
      var retries := 0;
      sleeps := [];
      while true
        invariant 0 <= retries <= 2
        invariant attempts == old(attempts) + retries
        invariant sleeps == [2, 4][..retries]
        invariant delivered == old(delivered)
        invariant retries == 0 ==> socket == old(socket) && sockets == old(sockets)
        invariant retries > 0 ==>
          socket == None && sockets == old(sockets) + (if old(socket).None? then 1 else 0) + retries - 1
        invariant SendFrom(env, old(attempts), 0) ==
          (SendFrom(env, attempts, retries).0, SendFrom(env, attempts, retries).1 + retries)
        decreases 2 - retries
      {
        var _ := Client();
        var outcome := Puts(data, env);
        if outcome.Written? {
          return Done, sleeps;
        }
        if outcome.OtherError? {
          return Raised, sleeps;
        }
        if retries < 2 {
          retries := retries + 1;
          socket := None;
          sleeps := sleeps + [Pow2(retries)];
        } else {
          return ConnectionFailure(retries), sleeps;
        }
      }
    }

    /**
     * The block write runs for one (tag, record): skip a record that is
     * not a Hash, has no matching token or has no "message"; otherwise
     * send its message followed by a space and the token.
     */
    method WriteRecord(event: Event, tokens: seq<(string, string)>, env: nat -> Attempt) returns (sent: Status)
      modifies this
      ensures Payload(event, tokens).None? ==>
        sent == Done && attempts == old(attempts) && delivered == old(delivered)
      ensures Payload(event, tokens).Some? ==>
        (sent, attempts - old(attempts)) == SendFrom(env, old(attempts), 0) &&
        delivered == if sent.Done? then old(delivered) + [Payload(event, tokens).value] else old(delivered)
      ensures Payload(event, tokens).None? ==> socket == old(socket) && sockets == old(sockets)
      ensures Payload(event, tokens).Some? ==>
        old(attempts) < attempts && socket.Some? &&
        sockets == old(sockets) + (if old(socket).None? then 1 else 0) + (attempts - old(attempts) - 1)
      ensures socket == if sockets == old(sockets) then old(socket) else Some(sockets - 1)
    {
      if event.record.NotHash? {
        return Done;
      }
      var token := GetToken(event.tag, tokens);
      if token.None? {
        return Done;
      }
      if "message" in event.record.fields {
        var data := Line(event.record.fields["message"], token.value);
        var sleeps;
        sent, sleeps := Send(data, env);
      } else {
        sent := Done;
      }
    }

    /** The record block for event i, stated as one step of WriteFrom over the chunk's lines. */
    method WriteEvent(chunk: seq<Event>, tokens: seq<(string, string)>, env: nat -> Attempt, i: nat,
                      ghost lines: seq<Option<string>>,
                      ghost socket0: Option<nat>, ghost count0: nat, ghost at0: nat)
      returns (sent: Status)
      requires i < |chunk| && lines == Lines(chunk, tokens) && at0 <= attempts
      requires SocketsAccounted(socket0, count0, at0, socket, sockets, attempts, |Sent(lines[..i])|)
      modifies this
      ensures attempts >= old(attempts)
      ensures SocketsAccounted(socket0, count0, at0, socket, sockets, attempts, |Sent(lines[..i + 1])|)
      ensures sent.Done? ==> delivered == old(delivered) + AsSeq(lines[i])
      ensures sent.Done? ==>
        WriteFrom(lines, env, i, old(attempts)).0 == WriteFrom(lines, env, i + 1, attempts).0 &&
        WriteFrom(lines, env, i, old(attempts)).1 == WriteFrom(lines, env, i + 1, attempts).1 &&
        WriteFrom(lines, env, i, old(attempts)).2 == WriteFrom(lines, env, i + 1, attempts).2 + (attempts - old(attempts))
      ensures !sent.Done? ==>
        lines[i].Some? && delivered == old(delivered) &&
        WriteFrom(lines, env, i, old(attempts)) == (sent, i, attempts - old(attempts))
    {
      ghost var at := attempts;
      SentSnoc(lines, i);
      assert lines[i] == Payload(chunk[i], tokens);
      sent := WriteRecord(chunk[i], tokens, env);
      WriteFromStep(lines, env, i, at, sent, attempts);
    }

    /**
     * write: run the record block for every event of the chunk in order;
     * the first send that fails ends write with its error.
     */
    method Write(chunk: seq<Event>, tokens: seq<(string, string)>, env: nat -> Attempt)
      returns (status: Status, processed: nat)
      modifies this
      ensures processed <= |chunk|
      ensures delivered == old(delivered) + Sent(Lines(chunk, tokens)[..processed])
      ensures status.Done? <==> processed == |chunk|
      ensures !status.Done? ==> Payload(chunk[processed], tokens).Some?
      ensures status == WriteFrom(Lines(chunk, tokens), env, 0, old(attempts)).0
      ensures processed == WriteFrom(Lines(chunk, tokens), env, 0, old(attempts)).1
      ensures attempts - old(attempts) == WriteFrom(Lines(chunk, tokens), env, 0, old(attempts)).2
      ensures SocketsAccounted(old(socket), old(sockets), old(attempts), socket, sockets, attempts,
        |Sent(Lines(chunk, tokens)[..if status.Done? then processed else processed + 1])|)
    {
      ghost var lines := Lines(chunk, tokens);
      ghost var whole := WriteFrom(lines, env, 0, attempts);
      for i := 0 to |chunk|
        invariant delivered == old(delivered) + Sent(lines[..i])
        invariant attempts >= old(attempts)
        invariant whole.0 == WriteFrom(lines, env, i, attempts).0
        invariant whole.1 == WriteFrom(lines, env, i, attempts).1
        invariant whole.2 == WriteFrom(lines, env, i, attempts).2 + (attempts - old(attempts))
        invariant SocketsAccounted(old(socket), old(sockets), old(attempts), socket, sockets, attempts, |Sent(lines[..i])|)
      {
        SentSnoc(lines, i);
        var sent := WriteEvent(chunk, tokens, env, i, lines, old(socket), old(sockets), old(attempts));
        if !sent.Done? {
          return sent, i;
        }
      }
      assert lines[..|chunk|] == lines;
      return Done, |chunk|;
    }
  }
}

=== FILE: provisioning.dfy ===
/**
 * The logset-level part of the resolver in test.rb: the cached logset
 * record, the filters over the remote log list, and the creation of a log
 * and attachment of its token to the record.
 */
module Provisioning {
  import opened Wrappers
  import opened RubyCore
  import opened RemoteService

  /**
   * An entry of a cached logset's "logs" hash: {"id"=>...} as listed by the
   * service, or {"token"=>..., "id"=>...} once a token has been attached.
   * The token is nil when the remote log carried no tokens.
   */
  datatype LogEntry = Listed(id: string) | Tokened(id: string, token: Option<string>)

  /** The value of a cached logset record. */
  datatype LogsetView = LogsetView(id: string, name: string, logs: map<string, LogEntry>)

  /** The pairs get_logset assigns into "logs", one per "logs_info" element. */
  function ListedPairs(info: seq<LogInfo>): seq<(string, LogEntry)>
  {
    seq(|info|, i requires 0 <= i < |info| => (info[i].name, Listed(info[i].id)))
  }

  /** The "logs" hash get_logset builds from a "logs_info" list. */
  function ListedLogs(info: seq<LogInfo>): map<string, LogEntry>
  {
    HashOf(ListedPairs(info))
  }

  /** info[i] is the last listed log named n. */
  predicate LastNamed(info: seq<LogInfo>, n: string, i: int)
  {
    0 <= i < |info| && info[i].name == n && forall j :: i < j < |info| ==> info[j].name != n
  }

  /**
   * The "logs" hash of get_logset has exactly the listed log names as keys,
   * each mapped to the id of the last listed log of that name, and no
   * entry has a token.
   */
  lemma {:induction false} ListedLogsLastWins(info: seq<LogInfo>)
    ensures ListedLogs(info).Keys == set e | e in info :: e.name
    ensures forall n :: n in ListedLogs(info) ==>
      (exists i :: LastNamed(info, n, i) && ListedLogs(info)[n] == Listed(info[i].id))
  {
    var pairs := ListedPairs(info);
    assert |pairs| == |info|;
    assert forall i :: 0 <= i < |info| ==> pairs[i] == (info[i].name, Listed(info[i].id));
    HashOfLastWins(pairs);
    assert (set p | p in pairs :: p.0) == set e | e in info :: e.name by {
      forall e | e in info ensures e.name in set p | p in pairs :: p.0 {
        var i :| 0 <= i < |info| && info[i] == e;
        assert pairs[i] in pairs;
      }
      forall p | p in pairs ensures p.0 in set e | e in info :: e.name {
        var i :| 0 <= i < |pairs| && pairs[i] == p;
        assert info[i] in info;
      }
    }
    forall n | n in ListedLogs(info)
      ensures exists i :: LastNamed(info, n, i) && ListedLogs(info)[n] == Listed(info[i].id)
    {
      var i :| LastWithKey(pairs, n, i) && ListedLogs(info)[n] == pairs[i].1;
      assert LastNamed(info, n, i);
    }
  }

  /** The loop of get_logset, which fills the "logs" hash from "logs_info". */
  method IndexLogs(info: seq<LogInfo>) returns (logs: map<string, LogEntry>)
    ensures logs == ListedLogs(info)
    ensures logs.Keys == set e | e in info :: e.name
    ensures forall n :: n in logs ==> (exists i :: LastNamed(info, n, i) && logs[n] == Listed(info[i].id))
  {
    ghost var pairs := ListedPairs(info);
    logs := map[];
    for i := 0 to |info|
      invariant logs == HashOf(pairs[..i])
    {
      assert pairs[..i + 1][..i] == pairs[..i];
      logs := logs[info[i].name := Listed(info[i].id)];
    }
    assert pairs[..|info|] == pairs;
    ListedLogsLastWins(info);
  }

  /**
   * No entry of a freshly listed logset has a token, so the first
   * get_or_create_log_token for any of its logs goes to the service.
   */
  lemma ListedLogsHaveNoToken(info: seq<LogInfo>)
    ensures forall n :: n in ListedLogs(info) ==> !ListedLogs(info)[n].Tokened?
  {
    ListedLogsLastWins(info);
  }

  /** A logset record as cached: its "logs" hash is updated in place. */
  class Logset {
    const id: string
    const name: string
    var logs: map<string, LogEntry>

    /** get_logset: the record of a logset listed by the service. */
    constructor FromRaw(raw: RawLogset)
      ensures id == raw.id && name == raw.name
      ensures logs == ListedLogs(raw.logsInfo)
    {
      var indexed := IndexLogs(raw.logsInfo);
      id := raw.id;
      name := raw.name;
      logs := indexed;
    }

    /** The record create_logset builds from a created logset: no logs yet. */
    constructor Empty(id: string, name: string)
      ensures this.id == id && this.name == name && logs == map[]
    {
      this.id := id;
      this.name := name;
      logs := map[];
    }

    function Value(): LogsetView
      reads this
    {
      LogsetView(id, name, logs)
    }
  }

  /**
   * log_token_exists?: false for a nil logset or log name and for a name
   * absent from "logs"; otherwise whether the entry has a "token" key.
   */
  function TokenExists(logset: Logset?, logName: Option<string>): (r: bool)
    reads logset
    ensures logset == null || logName.None? ==> !r
    ensures logset != null && logName.Some? ==>
      (r <==> logName.value in logset.logs && logset.logs[logName.value].Tokened?)
  {
    if logset == null || logName.None? then false
    else if logName.value in logset.logs then logset.logs[logName.value].Tokened?
    else false
  }

  /**
   * A record fresh from get_logset or from a created logset never passes
   * log_token_exists?, whatever log name is asked for.
   */
  lemma ListedLogsetHasNoToken(logset: Logset, info: seq<LogInfo>, logName: Option<string>)
    requires logset.logs == ListedLogs(info) || logset.logs == map[]
    ensures !TokenExists(logset, logName)
  {
    ListedLogsHaveNoToken(info);
  }

  // ---------------------------------------------------------------------
  // Filters over GET /management/logs

  /**
   * The value a log's first "logsets_info" id is compared with: an id
   * string, or (as test.rb:119 passes it) a whole logset record, which a
   * Ruby String never equals.
   */
  datatype IdOperand = IdString(id: string) | LogsetHash(logset: Logset)

  /** The log has a first owning logset, and its id equals logsetId. */
  predicate InLogset(log: RawLog, logsetId: IdOperand)
  {
    log.logsetsInfo != [] && IdString(log.logsetsInfo[0]) == logsetId
  }

  predicate Matches(log: RawLog, logsetId: IdOperand, name: string)
  {
    InLogset(log, logsetId) && log.name == name
  }

  /** The two selects shared by get_log_by_name and log_race_created?. */
  function LogsInLogset(logs: seq<RawLog>, logsetId: IdOperand): (r: seq<RawLog>)
    ensures forall log :: log in r <==> log in logs && InLogset(log, logsetId)
  {
    if logs == [] then []
    else if InLogset(logs[0], logsetId) then [logs[0]] + LogsInLogset(logs[1..], logsetId)
    else LogsInLogset(logs[1..], logsetId)
  }

  /** select { name == name }.first */
  function FirstNamed(logs: seq<RawLog>, name: string): Option<RawLog>
  {
    if logs == [] then None
    else if logs[0].name == name then Some(logs[0])
    else FirstNamed(logs[1..], name)
  }

  /** get_log_by_name: the first listed log of the logset with that name, or nil. */
  function GetLogByName(logs: seq<RawLog>, logsetId: IdOperand, name: string): Option<RawLog>
  {
    FirstNamed(LogsInLogset(logs, logsetId), name)
  }

  /** logs[i] is the first listed log of the logset with that name. */
  predicate FirstMatch(logs: seq<RawLog>, logsetId: IdOperand, name: string, i: int)
  {
    0 <= i < |logs| && Matches(logs[i], logsetId, name) &&
    forall j :: 0 <= j < i ==> !Matches(logs[j], logsetId, name)
  }

  lemma {:induction false} GetLogByNameFindsFirst(logs: seq<RawLog>, logsetId: IdOperand, name: string)
    ensures GetLogByName(logs, logsetId, name).None? <==>
      forall i :: 0 <= i < |logs| ==> !Matches(logs[i], logsetId, name)
    ensures GetLogByName(logs, logsetId, name).Some? ==>
      exists i :: FirstMatch(logs, logsetId, name, i) && GetLogByName(logs, logsetId, name).value == logs[i]
  {
    if logs != [] {
      var rest := logs[1..];
      GetLogByNameFindsFirst(rest, logsetId, name);
      var tail := LogsInLogset(rest, logsetId);
      if InLogset(logs[0], logsetId) {
        var filtered := [logs[0]] + tail;
        assert LogsInLogset(logs, logsetId) == filtered;
        assert filtered[0] == logs[0] && filtered[1..] == tail;
        if logs[0].name == name {
          assert FirstMatch(logs, logsetId, name, 0);
        } else {
          assert GetLogByName(logs, logsetId, name) == GetLogByName(rest, logsetId, name);
          ShiftFirstMatch(logs, logsetId, name);
        }
      } else {
        assert GetLogByName(logs, logsetId, name) == GetLogByName(rest, logsetId, name);
        ShiftFirstMatch(logs, logsetId, name);
      }
    }
  }

  /** A first match in the tail is a first match in the whole list when the head does not match. */
  lemma ShiftFirstMatch(logs: seq<RawLog>, logsetId: IdOperand, name: string)
    requires logs != [] && !Matches(logs[0], logsetId, name)
    ensures forall i :: FirstMatch(logs[1..], logsetId, name, i) ==> FirstMatch(logs, logsetId, name, i + 1)
    ensures (forall i :: 0 <= i < |logs[1..]| ==> !Matches(logs[1..][i], logsetId, name)) ==>
      forall i :: 0 <= i < |logs| ==> !Matches(logs[i], logsetId, name)
  {
    forall i | FirstMatch(logs[1..], logsetId, name, i) ensures FirstMatch(logs, logsetId, name, i + 1) {
      forall j | 0 <= j < i + 1 ensures !Matches(logs[j], logsetId, name) {
        if j > 0 { assert logs[j] == logs[1..][j - 1]; }
      }
    }
    if forall i :: 0 <= i < |logs[1..]| ==> !Matches(logs[1..][i], logsetId, name) {
      forall i | 0 <= i < |logs| ensures !Matches(logs[i], logsetId, name) {
        if i > 0 { assert logs[i] == logs[1..][i - 1]; }
      }
    }
  }

  /** map { name } */
  function LogNames(logs: seq<RawLog>): seq<string>
  {
    seq(|logs|, i requires 0 <= i < |logs| => logs[i].name)
  }

  /** log_race_created? (without its jitter): does the listing hold a log of that name in the logset? */
  function LogRaceCreated(logs: seq<RawLog>, logsetId: IdOperand, name: string): (r: bool)
    ensures r <==> exists i :: 0 <= i < |logs| && Matches(logs[i], logsetId, name)
  {
    var inLogset := LogsInLogset(logs, logsetId);
    var names := LogNames(inLogset);
    assert name in names ==> exists i :: 0 <= i < |logs| && Matches(logs[i], logsetId, name) by {
      if name in names {
        var k :| 0 <= k < |names| && names[k] == name;
        assert inLogset[k] in inLogset;
      }
    }
    assert (exists i :: 0 <= i < |logs| && Matches(logs[i], logsetId, name)) ==> name in names by {
      if exists i :: 0 <= i < |logs| && Matches(logs[i], logsetId, name) {
        var i :| 0 <= i < |logs| && Matches(logs[i], logsetId, name);
        assert logs[i] in inLogset;
        var k :| 0 <= k < |inLogset| && inLogset[k] == logs[i];
        assert names[k] == name;
      }
    }
    name in names
  }

  /** The race check and the lookup agree on whether a log of that name exists. */
  lemma RaceCheckAgreesWithLookup(logs: seq<RawLog>, logsetId: IdOperand, name: string)
    ensures LogRaceCreated(logs, logsetId, name) <==> GetLogByName(logs, logsetId, name).Some?
  {
    GetLogByNameFindsFirst(logs, logsetId, name);
  }

  /**
   * create_log hands the race check the logset record itself, which no
   * listed id equals: the race check never fires and create_log always
   * posts a new log.
   */
  lemma RaceCheckNeverMatchesRecord(logs: seq<RawLog>, logset: Logset, name: string)
    ensures !LogRaceCreated(logs, LogsetHash(logset), name)
  {
  }

  // ---------------------------------------------------------------------
  // Creating a log and attaching its token

  /**
   * add_log_to_logset: look the log up by the record's id and name, and
   * store {token, id} for it in the record; a missing log is dereferenced
   * as nil.
   */
  method AddLogToLogset(logset: Logset, name: string, remote: Remote)
    returns (r: Result<LogEntry, Error>, calls: seq<Call>)
    modifies logset
    ensures calls == [ListLogs]
    ensures GetLogByName(remote.logs, IdString(logset.id), name).None? ==>
      r == Err(NilLog) && logset.logs == old(logset.logs)
    ensures GetLogByName(remote.logs, IdString(logset.id), name).Some? ==>
      var log := GetLogByName(remote.logs, IdString(logset.id), name).value;
      r == Ok(Tokened(log.id, First(log.tokens))) && logset.logs == old(logset.logs)[name := r.value]
  {
    calls := [ListLogs];
    var log := GetLogByName(remote.logs, IdString(logset.id), name);
    if log.None? {
      r := Err(NilLog);
      return;
    }
    var entry := Tokened(log.value.id, First(log.value.tokens));
    logset.logs := logset.logs[name := entry];
    r := Ok(entry);
  }

  /**
   * create_log: run the race check, then post a new log in the logset and
   * store its first token and id in the record.  Every other entry of the
   * record is left as it was.
   */
  method CreateLog(logset: Logset, name: string, remote: Remote, reply: Reply<LogBody>)
    returns (r: Result<LogEntry, Error>, calls: seq<Call>)
    modifies logset
    ensures calls == [ListLogs, PostLog(logset.id, name)]
    ensures reply.Created? ==>
      r == Ok(Tokened(reply.body.id, First(reply.body.tokens))) &&
      logset.logs == old(logset.logs)[name := r.value]
    ensures !reply.Created? ==> r == Err(RequestFailed) && logset.logs == old(logset.logs)
  {
    // The race check is given the record, not its id (test.rb:119).
    if LogRaceCreated(remote.logs, LogsetHash(logset), name) {
      // The adopting branch (add_log_to_logset) cannot be taken.
      RaceCheckNeverMatchesRecord(remote.logs, logset, name);
      assert false;
    }
    calls := [ListLogs, PostLog(logset.id, name)];
    match reply
    case Created(body) =>
      var entry := Tokened(body.id, First(body.tokens));
      logset.logs := logset.logs[name := entry];
      r := Ok(entry);
    case _ =>
      r := Err(RequestFailed);
  }

  /**
   * get_or_create_log_token: a cached entry with a token is returned as it
   * is, with no request; otherwise a log is created.  Either way the entry
   * returned carries a token and is the one stored under the name.
   */
  method GetOrCreateLogToken(logset: Logset, logName: string, remote: Remote, reply: Reply<LogBody>)
    returns (r: Result<LogEntry, Error>, calls: seq<Call>)
    modifies logset
    ensures r.Ok? ==> r.value.Tokened? && logName in logset.logs && logset.logs[logName] == r.value
    ensures old(TokenExists(logset, Some(logName))) ==>
      r == Ok(old(logset.logs[logName])) && calls == [] && logset.logs == old(logset.logs)
    ensures !old(TokenExists(logset, Some(logName))) ==>
      (reply.Created? ==> r == Ok(Tokened(reply.body.id, First(reply.body.tokens)))) &&
      (!reply.Created? ==> r == Err(RequestFailed))
    ensures !old(TokenExists(logset, Some(logName))) ==>
      calls == [ListLogs, PostLog(logset.id, logName)] &&
      (r.Ok? ==> logset.logs == old(logset.logs)[logName := r.value]) &&
      (r.Err? ==> logset.logs == old(logset.logs))
  {
    if TokenExists(logset, Some(logName)) {
      r, calls := Ok(logset.logs[logName]), [];
    } else {
      r, calls := CreateLog(logset, logName, remote, reply);
    }
  }
}

=== FILE: remote.dfy ===
/**
 * The Logentries management service as the resolver sees it: the bodies
 * of its GET responses as plain data, the outcome of its POSTs as
 * replies, and the requests made to it as a trace.
 */
module RemoteService {
  import opened Wrappers

  /** One element of a logset's "logs_info" list. */
  datatype LogInfo = LogInfo(id: string, name: string)

  /** One element of GET /management/logsets, or the body of GET /management/logsets/{id}. */
  datatype RawLogset = RawLogset(id: string, name: string, logsInfo: seq<LogInfo>)

  /**
   * One element of GET /management/logs: "logsets_info" is kept as the
   * list of the owning logsets' ids, in the order listed.
   */
  datatype RawLog = RawLog(id: string, name: string, logsetsInfo: seq<string>, tokens: seq<string>)

  /** What the GET requests of one resolution answer. */
  datatype Remote = Remote(logsets: seq<RawLogset>, logs: seq<RawLog>)

  /** The "logset" object of a successful POST /management/logsets. */
  datatype LogsetBody = LogsetBody(id: string, name: string)

  /** The "log" object of a successful POST /management/logs. */
  datatype LogBody = LogBody(id: string, tokens: seq<string>)

  /**
   * The outcome of a POST: a created resource, a 400 answer
   * (RestClient::BadRequest), or any other failure RestClient raises.
   */
  datatype Reply<T> = Created(body: T) | BadRequest | Rejected

  /** A request sent to the management API. */
  datatype Call =
    | ListLogsets                              // GET /management/logsets
    | ListLogs                                 // GET /management/logs
    | PostLogset(name: string)                 // POST /management/logsets
    | PostLog(logsetId: string, name: string)  // POST /management/logs

  /** The exceptions a resolution can end with. */
  datatype Error =
    | RequestFailed         // a RestClient exception other than the recovered BadRequest
    | UnableToCreateLogset  // raise 'Unable to create logset'
    | NilLog                // NoMethodError: the looked-up log was nil

  /**
   * GET /management/logsets/{id}: the first listed logset with that id,
   * or nil where the service answers 404.
   */
  function LogsetById(logsets: seq<RawLogset>, id: string): (r: Option<RawLogset>)
    ensures r.Some? ==> r.value in logsets && r.value.id == id
    ensures r.None? ==> forall l :: l in logsets ==> l.id != id
  {
    if logsets == [] then None
    else if logsets[0].id == id then Some(logsets[0])
    else LogsetById(logsets[1..], id)
  }
}

=== FILE: ruby_core.dfy ===
/**
 * The few Ruby core methods the plugin relies on, with the semantics of
 * the Ruby library: Array#first, a Hash filled by successive assignment,
 * String#index and String#gsub with an empty replacement.
 */
module RubyCore {
  import opened Wrappers

  /** Array#first: the first element, or nil for an empty array. */
  function First<T>(s: seq<T>): Option<T>
  {
    if s == [] then None else Some(s[0])
  }

  // ---------------------------------------------------------------------
  // Hashes filled in order

  /**
   * The Hash obtained from {} by assigning h[k] = v for each pair in
   * order, so that a later pair overwrites an earlier one with the same key.
   */
  function HashOf<K, V>(pairs: seq<(K, V)>): map<K, V>
  {
    if pairs == [] then map[]
    else HashOf(pairs[..|pairs| - 1])[pairs[|pairs| - 1].0 := pairs[|pairs| - 1].1]
  }

  /** pairs[i] is the last pair whose key is k. */
  predicate LastWithKey<K(==), V>(pairs: seq<(K, V)>, k: K, i: int)
  {
    0 <= i < |pairs| && pairs[i].0 == k && forall j :: i < j < |pairs| ==> pairs[j].0 != k
  }

  /** The keys of the Hash are the keys of the pairs, and the last assignment wins. */
  lemma {:induction false} HashOfLastWins<K, V>(pairs: seq<(K, V)>)
    ensures HashOf(pairs).Keys == set p | p in pairs :: p.0
    ensures forall k :: k in HashOf(pairs) ==>
      exists i :: LastWithKey(pairs, k, i) && HashOf(pairs)[k] == pairs[i].1
  {
    if pairs != [] {
      var n := |pairs| - 1;
      var init := pairs[..n];
      HashOfLastWins(init);
      assert pairs == init + [pairs[n]];
      assert (set p | p in pairs :: p.0) == (set p | p in init :: p.0) + {pairs[n].0};
      forall k | k in HashOf(pairs)
        ensures exists i :: LastWithKey(pairs, k, i) && HashOf(pairs)[k] == pairs[i].1
      {
        if k == pairs[n].0 {
          assert LastWithKey(pairs, k, n);
        } else {
          var i :| LastWithKey(init, k, i) && HashOf(init)[k] == init[i].1;
          assert LastWithKey(pairs, k, i);
        }
      }
    }
  }

  // ---------------------------------------------------------------------
  // Strings

  /** sub occurs in s starting at position k. */
  predicate OccursAt(sub: string, s: string, k: nat)
  {
    k + |sub| <= |s| && s[k..k + |sub|] == sub
  }

  /**
   * String#index(sub, from): the first position at or after from where sub
   * occurs in s, or nil.
   */
  function IndexFrom(s: string, sub: string, from: nat): (r: Option<nat>)
    decreases |s| + 1 - from
    ensures r.Some? ==> from <= r.value && OccursAt(sub, s, r.value)
    ensures r.Some? ==> forall k :: from <= k < r.value ==> !OccursAt(sub, s, k)
    ensures r.None? ==> forall k :: from <= k ==> !OccursAt(sub, s, k)
  {
    if |s| < from + |sub| then None
    else if OccursAt(sub, s, from) then Some(from)
    else IndexFrom(s, sub, from + 1)
  }

  /** String#index(sub): the first position where sub occurs in s, or nil. */
  function Index(s: string, sub: string): (r: Option<nat>)
    ensures r.Some? <==> exists k: nat :: OccursAt(sub, s, k)
    ensures r.Some? ==> OccursAt(sub, s, r.value) && forall k: nat :: k < r.value ==> !OccursAt(sub, s, k)
  {
    IndexFrom(s, sub, 0)
  }

  /**
   * String#gsub(pat, ''): scanning s from left to right, every occurrence
   * of pat that starts after the previous deleted one is deleted.  An empty
   * pattern leaves s unchanged.
   */
  function DeleteAll(s: string, pat: string): string
    decreases |s|
  {
    if pat == [] || |s| < |pat| then s
    else if s[..|pat|] == pat then DeleteAll(s[|pat|..], pat)
    else [s[0]] + DeleteAll(s[1..], pat)
  }

  /** Dropping the first character shifts every occurrence by one. */
  lemma OccursAtTail(sub: string, s: string, k: nat)
    requires s != []
    ensures OccursAt(sub, s[1..], k) <==> OccursAt(sub, s, k + 1)
  {
    if k + 1 + |sub| <= |s| {
      assert s[1..][k..k + |sub|] == s[k + 1..k + 1 + |sub|];
    }
  }

  /** Where the pattern does not start, gsub keeps the first character. */
  lemma DeleteAllKeeps(s: string, pat: string)
    requires pat != [] && !OccursAt(pat, s, 0)
    ensures s != [] ==> DeleteAll(s, pat) == [s[0]] + DeleteAll(s[1..], pat)
  {
  }

  /** A string in which the pattern does not occur is left unchanged. */
  lemma {:induction false} DeleteAllAbsent(s: string, pat: string)
    requires forall k: nat :: !OccursAt(pat, s, k)
    ensures DeleteAll(s, pat) == s
    decreases |s|
  {
    if pat != [] && s != [] {
      DeleteAllKeeps(s, pat);
      forall k: nat ensures !OccursAt(pat, s[1..], k) {
        OccursAtTail(pat, s, k);
      }
      DeleteAllAbsent(s[1..], pat);
      assert s == [s[0]] + s[1..];
    }
  }

  /**
   * An occurrence after a stretch a in which no occurrence starts is
   * deleted, wherever it stands: the deletion is not limited to a prefix.
   */
  lemma {:induction false} DeleteAllOccurrence(a: string, pat: string, b: string)
    requires pat != []
    requires forall k: nat :: k < |a| ==> !OccursAt(pat, a + pat + b, k)
    ensures DeleteAll(a + pat + b, pat) == a + DeleteAll(b, pat)
    decreases |a|
  {
    var s := a + pat + b;
    if a == [] {
      assert s == pat + b;
      assert s[..|pat|] == pat;
      assert s[|pat|..] == b;
    } else {
      DeleteAllKeeps(s, pat);
      var rest := a[1..] + pat + b;
      assert s[1..] == rest;
      forall k: nat | k < |a[1..]| ensures !OccursAt(pat, rest, k) {
        OccursAtTail(pat, s, k);
      }
      DeleteAllOccurrence(a[1..], pat, b);
      calc {
        DeleteAll(s, pat);
        [s[0]] + DeleteAll(rest, pat);
        [a[0]] + (a[1..] + DeleteAll(b, pat));
        { assert a == [a[0]] + a[1..]; }
        a + DeleteAll(b, pat);
      }
    }
  }

  /** A leading occurrence is deleted: "remove-me-team1" becomes "team1". */
  lemma DeleteAllPrefixExample()
    ensures DeleteAll("remove-me-team1", "remove-me-") == "team1"
  {
    DeleteAllOccurrence("", "remove-me-", "team1");
  }
}

=== FILE: token_cache.dfy ===
/**
 * The cache-level part of the resolver in test.rb: the name -> logset
 * cache, its refresh from the service, logset creation with recovery
 * from a conflict, token resolution for a record, and the sweep that picks
 * the duplicate remote logs to delete.
 */
module TokenCache {
  import opened Wrappers
  import opened RubyCore
  import opened RemoteService
  import opened Provisioning

  // ---------------------------------------------------------------------
  // Record keys

  /** A key of an incoming record: a String, or a Symbol with that name. */
  datatype Key = StringKey(s: string) | SymbolKey(s: string)

  /** Key#to_s */
  function ToS(k: Key): string
  {
    match k
    case StringKey(s) => s
    case SymbolKey(s) => s
  }

  function StringifiedPairs(record: seq<(Key, string)>): seq<(string, string)>
  {
    seq(|record|, i requires 0 <= i < |record| => (ToS(record[i].0), record[i].1))
  }

  /** The hash transform_keys builds from a record. */
  function Stringified(record: seq<(Key, string)>): map<string, string>
  {
    HashOf(StringifiedPairs(record))
  }

  /**
   * transform_keys yields the stringified keys of the record, each with
   * the value of the last key of the record that stringifies to it.
   */
  lemma {:induction false} StringifiedLastWins(record: seq<(Key, string)>)
    ensures Stringified(record).Keys == set p | p in record :: ToS(p.0)
    ensures forall k :: k in Stringified(record) ==>
      (exists i :: LastWithKey(StringifiedPairs(record), k, i) && Stringified(record)[k] == record[i].1)
  {
    var pairs := StringifiedPairs(record);
    assert |pairs| == |record|;
    assert forall i :: 0 <= i < |record| ==> pairs[i] == (ToS(record[i].0), record[i].1);
    HashOfLastWins(pairs);
    assert (set p | p in pairs :: p.0) == set p | p in record :: ToS(p.0) by {
      forall p | p in record ensures ToS(p.0) in set q | q in pairs :: q.0 {
        var i :| 0 <= i < |record| && record[i] == p;
        assert pairs[i] in pairs;
      }
      forall q | q in pairs ensures q.0 in set p | p in record :: ToS(p.0) {
        var i :| 0 <= i < |pairs| && pairs[i] == q;
        assert record[i] in record;
      }
    }
  }

  /** transform_keys: the loop that copies the record under stringified keys. */
  method TransformKeys(record: seq<(Key, string)>) returns (result: map<string, string>)
    ensures result == Stringified(record)
    ensures result.Keys == set p | p in record :: ToS(p.0)
    ensures forall k :: k in result ==>
      (exists i :: LastWithKey(StringifiedPairs(record), k, i) && result[k] == record[i].1)
  {
    ghost var pairs := StringifiedPairs(record);
    result := map[];
    for i := 0 to |record|
      invariant result == HashOf(pairs[..i])
    {
      assert pairs[..i + 1][..i] == pairs[..i];
      result := result[ToS(record[i].0) := record[i].1];
    }
    assert pairs[..|record|] == pairs;
    StringifiedLastWins(record);
  }

  // ---------------------------------------------------------------------
  // Refreshing the cache from the logset listing

  /** The cached value of a listed logset (get_logset). */
  function ViewOf(raw: RawLogset): LogsetView
  {
    LogsetView(raw.id, raw.name, ListedLogs(raw.logsInfo))
  }

  /** The cache after populate_logsets: a listed name is added only when it is not cached yet. */
  function Populated(view: map<string, LogsetView>, raws: seq<RawLogset>): map<string, LogsetView>
  {
    if raws == [] then view
    else
      var before := Populated(view, raws[..|raws| - 1]);
      var raw := raws[|raws| - 1];
      if raw.name in before then before else before[raw.name := ViewOf(raw)]
  }

  /** raws[i] is the first listed logset named n. */
  predicate FirstNamedLogset(raws: seq<RawLogset>, n: string, i: int)
  {
    0 <= i < |raws| && raws[i].name == n && forall j :: 0 <= j < i ==> raws[j].name != n
  }

  /** A name populate_logsets adds comes from the listing, so none of its logs has a token yet. */
  lemma PopulatedAddsNoToken(view: map<string, LogsetView>, raws: seq<RawLogset>, n: string)
    requires n !in view && n in Populated(view, raws)
    ensures forall k :: k in Populated(view, raws)[n].logs ==> !Populated(view, raws)[n].logs[k].Tokened?
  {
    PopulatedFirstWins(view, raws, n);
    var i :| FirstNamedLogset(raws, n, i) && Populated(view, raws)[n] == ViewOf(raws[i]);
    ListedLogsHaveNoToken(raws[i].logsInfo);
  }

  /** populate_logsets never overwrites a cached entry. */
  lemma {:induction false} PopulatedKeepsCached(view: map<string, LogsetView>, raws: seq<RawLogset>)
    ensures forall n :: n in view ==> n in Populated(view, raws) && Populated(view, raws)[n] == view[n]
  {
    if raws != [] {
      PopulatedKeepsCached(view, raws[..|raws| - 1]);
    }
  }

  /** populate_logsets adds exactly the listed names to the cached ones. */
  lemma {:induction false} PopulatedKeys(view: map<string, LogsetView>, raws: seq<RawLogset>)
    ensures Populated(view, raws).Keys == view.Keys + set raw | raw in raws :: raw.name
  {
    if raws != [] {
      var k := |raws| - 1;
      var init := raws[..k];
      PopulatedKeys(view, init);
      assert raws == init + [raws[k]];
      assert (set raw | raw in raws :: raw.name) == (set raw | raw in init :: raw.name) + {raws[k].name};
    }
  }

  /**
   * A name populate_logsets adds gets the record of the first listed
   * logset of that name.
   */
  lemma {:induction false} PopulatedFirstWins(view: map<string, LogsetView>, raws: seq<RawLogset>, n: string)
    requires n in Populated(view, raws) && n !in view
    ensures exists i :: FirstNamedLogset(raws, n, i) && Populated(view, raws)[n] == ViewOf(raws[i])
  {
    var k := |raws| - 1;
    var init := raws[..k];
    var before := Populated(view, init);
    if n in before {
      PopulatedFirstWins(view, init, n);
      var i :| FirstNamedLogset(init, n, i) && before[n] == ViewOf(init[i]);
      assert FirstNamedLogset(raws, n, i);
    } else {
      NotListedBefore(view, init, n);
      assert FirstNamedLogset(raws, n, k);
    }
  }

  /** A name that populate_logsets did not add is not listed. */
  lemma NotListedBefore(view: map<string, LogsetView>, raws: seq<RawLogset>, n: string)
    requires n !in Populated(view, raws)
    ensures forall j :: 0 <= j < |raws| ==> raws[j].name != n
  {
    PopulatedKeys(view, raws);
    forall j | 0 <= j < |raws| ensures raws[j].name != n {
      assert raws[j] in raws;
    }
  }

  // ---------------------------------------------------------------------
  // The duplicate sweep

  /** The select/reject of delete_deplicate_logs: logs listed under the name with another id. */
  function DuplicatesOf(info: seq<LogInfo>, logName: string, keepId: string): (r: seq<LogInfo>)
    ensures forall e :: e in r <==> e in info && e.name == logName && e.id != keepId
  {
    if info == [] then []
    else if info[0].name == logName && info[0].id != keepId then [info[0]] + DuplicatesOf(info[1..], logName, keepId)
    else DuplicatesOf(info[1..], logName, keepId)
  }

  /** The ids the sweep deletes in one logset: listed logs of a cached name whose id is not the cached one. */
  function LogsetDuplicates(logs: map<string, LogEntry>, info: seq<LogInfo>): set<string>
  {
    set e | e in info && e.name in logs && e.id != logs[e.name].id :: e.id
  }

  /**
   * What the whole sweep deletes, given the cache and what GET
   * /management/logsets/{id} answers; a cached logset the service does not
   * know makes the sweep raise.
   */
  function SweepTargets(view: map<string, LogsetView>, logsets: seq<RawLogset>): Result<set<string>, Error>
  {
    if AllListed(view, logsets) then Ok(SweepSet(view, logsets)) else Err(RequestFailed)
  }

  /** The service lists every cached logset. */
  predicate AllListed(view: map<string, LogsetView>, logsets: seq<RawLogset>)
  {
    forall n :: n in view ==> LogsById(view, logsets, n).Some?
  }

  /** GET /management/logsets/{id} for the cached logset n. */
  function LogsById(view: map<string, LogsetView>, logsets: seq<RawLogset>, n: string): Option<RawLogset>
    requires n in view
  {
    LogsetById(logsets, view[n].id)
  }

  /** The union over the cached logsets of the ids deleted in each. */
  function SweepSet(view: map<string, LogsetView>, logsets: seq<RawLogset>): set<string>
    requires AllListed(view, logsets)
  {
    set n, d | n in view && d in LogsetDuplicates(view[n].logs, LogsById(view, logsets, n).value.logsInfo) :: d
  }

  /** After the deletions, every listed log bearing a cached name carries the cached id. */
  lemma SweepLeavesCachedIds(logs: map<string, LogEntry>, info: seq<LogInfo>)
    ensures forall e :: e in info && e.name in logs && e.id !in LogsetDuplicates(logs, info) ==>
      e.id == logs[e.name].id
  {
  }

  /**
   * Across the whole sweep: every log a cached logset lists under one of
   * its cached log names either carries the cached id or is among the ids
   * the sweep deletes.
   */
  lemma SweepKeepsOnlyCachedIds(view: map<string, LogsetView>, logsets: seq<RawLogset>)
    requires AllListed(view, logsets)
    ensures forall n, e ::
      (n in view && e in LogsById(view, logsets, n).value.logsInfo &&
       e.name in view[n].logs && e.id != view[n].logs[e.name].id) ==> e.id in SweepSet(view, logsets)
  {
    forall n, e | n in view && e in LogsById(view, logsets, n).value.logsInfo &&
      e.name in view[n].logs && e.id != view[n].logs[e.name].id
      ensures e.id in SweepSet(view, logsets)
    {
      assert e.id in LogsetDuplicates(view[n].logs, LogsById(view, logsets, n).value.logsInfo);
    }
  }

  /**
   * In one logset's pass: when its listing never gives a cached id to a log
   * of another name, the pass deletes none of the logset's cached logs.
   */
  lemma SweepSparesCachedLogs(logs: map<string, LogEntry>, info: seq<LogInfo>)
    requires forall e, n :: e in info && n in logs && e.id == logs[n].id ==> e.name == n
    ensures forall n :: n in logs ==> logs[n].id !in LogsetDuplicates(logs, info)
  {
  }

  /**
   * A logset listing N logs named n, one of them the cached one: after this
   * logset's pass exactly that one remains under the name, when listed ids
   * are unique.
   */
  lemma SweepLeavesOne(logs: map<string, LogEntry>, info: seq<LogInfo>, n: string)
    requires n in logs && LogInfo(logs[n].id, n) in info
    requires forall e1, e2 :: e1 in info && e2 in info && e1.id == e2.id ==> e1 == e2
    ensures (set e | e in info && e.name == n && e.id !in LogsetDuplicates(logs, info)) ==
      {LogInfo(logs[n].id, n)}
  {
    var kept := LogInfo(logs[n].id, n);
    assert kept.id !in LogsetDuplicates(logs, info);
    SweepLeavesCachedIds(logs, info);
  }

  /**
   * Across the whole sweep: no cached log is deleted when no cached logset
   * lists a cached id under one of its own cached names with that name
   * caching another id.
   */
  lemma SweepSparesAllCachedLogs(view: map<string, LogsetView>, logsets: seq<RawLogset>)
    requires AllListed(view, logsets)
    requires forall n, k, m, e ::
      (n in view && k in view[n].logs && m in view && e in LogsById(view, logsets, m).value.logsInfo &&
       e.id == view[n].logs[k].id && e.name in view[m].logs) ==> view[m].logs[e.name].id == e.id
    ensures forall n, k :: n in view && k in view[n].logs ==> view[n].logs[k].id !in SweepSet(view, logsets)
  {
  }

  /**
   * The other direction: a cached log is deleted as soon as some cached
   * logset (the same or another) lists its id under a cached name of its
   * own that caches a different id.
   */
  lemma SweepDeletesListedElsewhere(view: map<string, LogsetView>, logsets: seq<RawLogset>,
                                    n: string, k: string, m: string, e: LogInfo)
    requires AllListed(view, logsets)
    requires n in view && k in view[n].logs && m in view
    requires e in LogsById(view, logsets, m).value.logsInfo && e.id == view[n].logs[k].id
    requires e.name in view[m].logs && view[m].logs[e.name].id != e.id
    ensures view[n].logs[k].id in SweepSet(view, logsets)
  {
    assert e.id in LogsetDuplicates(view[m].logs, LogsById(view, logsets, m).value.logsInfo);
  }

  /**
   * The sweep can delete a cached log of another logset: logsets A and B
   * both cache a log "app" (X in A, Y in B), and B's listing also holds X
   * under "app". B's pass deletes X although A caches it.
   */
  lemma SweepDeletesAnotherLogsetsLog()
    ensures var view := map["A" := LogsetView("a", "A", map["app" := Listed("X")]),
                            "B" := LogsetView("b", "B", map["app" := Listed("Y")])];
            var logsets := [RawLogset("a", "A", [LogInfo("X", "app")]),
                            RawLogset("b", "B", [LogInfo("X", "app"), LogInfo("Y", "app")])];
            AllListed(view, logsets) && view["A"].logs["app"].id in SweepSet(view, logsets)
  {
    var view := map["A" := LogsetView("a", "A", map["app" := Listed("X")]),
                    "B" := LogsetView("b", "B", map["app" := Listed("Y")])];
    var logsets := [RawLogset("a", "A", [LogInfo("X", "app")]),
                    RawLogset("b", "B", [LogInfo("X", "app"), LogInfo("Y", "app")])];
    assert LogsById(view, logsets, "A") == Some(logsets[0]);
    assert LogsById(view, logsets, "B") == Some(logsets[1]);
    SweepDeletesListedElsewhere(view, logsets, "A", "app", "B", LogInfo("X", "app"));
  }

  // ---------------------------------------------------------------------
  // What a resolution returns and requests

  /** The token create_log returns for the posted log, or the failure it raises. */
  function PostedToken(reply: Reply<LogBody>): Result<Option<string>, Error>
  {
    if reply.Created? then Ok(First(reply.body.tokens)) else Err(RequestFailed)
  }

  /** The cache holds a token for log logName of logset key. */
  predicate HasCachedToken(view: map<string, LogsetView>, key: string, logName: string)
  {
    key in view && logName in view[key].logs && view[key].logs[logName].Tokened?
  }

  /**
   * The second half of get_token: what resolving logset key and log
   * logName returns and which requests it makes, given the cache's value
   * before, the listings and the service's answers to the two POSTs.
   */
  function Resolution(view: map<string, LogsetView>, key: string, logName: string, remote: Remote,
                      logsetReply: Reply<LogsetBody>, logReply: Reply<LogBody>)
    : (Result<Option<string>, Error>, seq<Call>)
  {
    if HasCachedToken(view, key, logName) then (Ok(view[key].logs[logName].token), [])
    else if key in view then (PostedToken(logReply), [ListLogs, PostLog(view[key].id, logName)])
    else match logsetReply
      case Created(body) =>
        (PostedToken(logReply), [PostLogset(key), ListLogs, PostLog(body.id, logName)])
      case BadRequest =>
        var refreshed := Populated(view, remote.logsets);
        if key in refreshed then
          (PostedToken(logReply), [PostLogset(key), ListLogsets, ListLogs, PostLog(refreshed[key].id, logName)])
        else (Err(UnableToCreateLogset), [PostLogset(key), ListLogsets])
      case Rejected => (Err(RequestFailed), [PostLogset(key)])
  }

  /** A resolution makes no request exactly when the cache already holds the token. */
  lemma ResolutionCachedIffNoRequest(view: map<string, LogsetView>, key: string, logName: string, remote: Remote,
                                     logsetReply: Reply<LogsetBody>, logReply: Reply<LogBody>)
    ensures Resolution(view, key, logName, remote, logsetReply, logReply).1 == [] <==>
      HasCachedToken(view, key, logName)
  {
  }

  /**
   * A resolution that goes to the service and succeeds has posted log
   * logName as its last request, and returns the first token of the
   * created log.
   */
  lemma ResolutionReturnsPostedToken(view: map<string, LogsetView>, key: string, logName: string, remote: Remote,
                                     logsetReply: Reply<LogsetBody>, logReply: Reply<LogBody>)
    requires !HasCachedToken(view, key, logName)
    ensures var (r, calls) := Resolution(view, key, logName, remote, logsetReply, logReply);
      r.Ok? ==>
        logReply.Created? && r.value == First(logReply.body.tokens) &&
        calls != [] && calls[|calls| - 1].PostLog? && calls[|calls| - 1].name == logName
  {
  }

  /** A resolution posts the logset only when it is not cached, and then as its first request. */
  lemma ResolutionPostsUncachedLogset(view: map<string, LogsetView>, key: string, logName: string, remote: Remote,
                                      logsetReply: Reply<LogsetBody>, logReply: Reply<LogBody>)
    ensures var calls := Resolution(view, key, logName, remote, logsetReply, logReply).1;
      (key in view <==> PostLogset(key) !in calls) &&
      (key !in view ==> calls[0] == PostLogset(key))
  {
  }

  // ---------------------------------------------------------------------
  // What a resolution leaves in the cache

  /**
   * The cached value of a logset after get_or_create_log_token: an entry
   * that already has a token is kept; otherwise a created log is stored as
   * {token: its first token, id: its id}, and a failed post stores nothing.
   */
  function WithLogToken(v: LogsetView, logName: string, logReply: Reply<LogBody>): LogsetView
  {
    if logName in v.logs && v.logs[logName].Tokened? then v
    else if logReply.Created? then
      v.(logs := v.logs[logName := Tokened(logReply.body.id, First(logReply.body.tokens))])
    else v
  }

  /** The logs of a logset created for log logName once the log has been posted. */
  function CreatedLogs(logName: string, logReply: Reply<LogBody>): map<string, LogEntry>
  {
    WithLogToken(LogsetView("", "", map[]), logName, logReply).logs
  }

  /**
   * The cache once get_token has found logset key: a cached name is kept;
   * a created logset is cached with no logs; after a 400 answer the cache
   * is the refreshed one; a failed post caches nothing.
   */
  function WithLogset(view: map<string, LogsetView>, key: string, remote: Remote,
                      logsetReply: Reply<LogsetBody>): map<string, LogsetView>
  {
    if key in view then view
    else match logsetReply
      case Created(body) => view[key := LogsetView(body.id, body.name, map[])]
      case BadRequest => Populated(view, remote.logsets)
      case Rejected => view
  }

  /** The cache after resolving logset key and log logName. */
  function ResolvedView(view: map<string, LogsetView>, key: string, logName: string, remote: Remote,
                        logsetReply: Reply<LogsetBody>, logReply: Reply<LogBody>): map<string, LogsetView>
  {
    var found := WithLogset(view, key, remote, logsetReply);
    if key in found then found[key := WithLogToken(found[key], logName, logReply)] else found
  }

  /**
   * A resolution keeps every other cached entry, and after a 400 answer
   * to the logset post it also holds every name the listing refreshed.
   */
  lemma {:induction false} ResolvedViewKeepsOthers(view: map<string, LogsetView>, key: string, logName: string,
                                                   remote: Remote, logsetReply: Reply<LogsetBody>,
                                                   logReply: Reply<LogBody>)
    ensures var resolved := ResolvedView(view, key, logName, remote, logsetReply, logReply);
      forall n :: n in view && n != key ==> n in resolved && resolved[n] == view[n]
    ensures key !in view && logsetReply.BadRequest? ==>
      var resolved := ResolvedView(view, key, logName, remote, logsetReply, logReply);
      var refreshed := Populated(view, remote.logsets);
      refreshed.Keys <= resolved.Keys &&
      forall n :: n in refreshed && n != key ==> resolved[n] == refreshed[n]
  {
    PopulatedKeepsCached(view, remote.logsets);
  }

  /**
   * In a cached logset, a resolution adds at most the entry of log
   * logName, with the posted log's id and first token, and keeps every
   * other entry and the logset's id.
   */
  lemma ResolvedViewTouchesOneLog(view: map<string, LogsetView>, key: string, logName: string,
                                  remote: Remote, logsetReply: Reply<LogsetBody>, logReply: Reply<LogBody>)
    requires key in view
    ensures var resolved := ResolvedView(view, key, logName, remote, logsetReply, logReply);
      key in resolved && resolved[key].id == view[key].id &&
      resolved[key].logs.Keys <= view[key].logs.Keys + {logName} &&
      (forall k :: k in view[key].logs && k != logName ==> resolved[key].logs[k] == view[key].logs[k]) &&
      (!HasCachedToken(view, key, logName) && logReply.Created? ==>
        resolved[key].logs[logName] == Tokened(logReply.body.id, First(logReply.body.tokens)))
  {
  }

  /**
   * The cache and the answer agree: a successful resolution leaves the
   * returned token cached, and a failed one leaves the cache as the
   * logset lookup left it.
   */
  lemma {:induction false} ResolvedViewHoldsAnswer(view: map<string, LogsetView>, key: string, logName: string,
                                                  remote: Remote, logsetReply: Reply<LogsetBody>,
                                                  logReply: Reply<LogBody>)
    ensures var r := Resolution(view, key, logName, remote, logsetReply, logReply).0;
      var resolved := ResolvedView(view, key, logName, remote, logsetReply, logReply);
      (r.Ok? ==> HasCachedToken(resolved, key, logName) && resolved[key].logs[logName].token == r.value) &&
      (r.Err? ==> resolved == WithLogset(view, key, remote, logsetReply))
  {
    if key !in view && logsetReply.BadRequest? && key in Populated(view, remote.logsets) {
      PopulatedAddsNoToken(view, remote.logsets, key);
    }
  }

  /**
   * Resolving again from the cache a successful resolution left returns
   * the same token with no request and changes nothing, whatever the
   * service would answer.
   */
  lemma ResolutionThenCached(view: map<string, LogsetView>, key: string, logName: string, remote: Remote,
                             logsetReply: Reply<LogsetBody>, logReply: Reply<LogBody>,
                             remote2: Remote, logsetReply2: Reply<LogsetBody>, logReply2: Reply<LogBody>)
    requires Resolution(view, key, logName, remote, logsetReply, logReply).0.Ok?
    ensures var resolved := ResolvedView(view, key, logName, remote, logsetReply, logReply);
      Resolution(resolved, key, logName, remote2, logsetReply2, logReply2) ==
        (Resolution(view, key, logName, remote, logsetReply, logReply).0, []) &&
      ResolvedView(resolved, key, logName, remote2, logsetReply2, logReply2) == resolved
  {
    ResolvedViewHoldsAnswer(view, key, logName, remote, logsetReply, logReply);
  }

  // ---------------------------------------------------------------------
  // The resolver

  /**
   * The resolver's state: the record field names, the string removed
   * from logset names, and the cache from logset name to logset record.
   */
  class Resolver {
    const logsetNameField: string
    const logNameField: string
    const logsetNameRemove: Option<string>
    var cache: map<string, Logset>

    /** No record is cached under two names. */
    ghost predicate Valid()
      reads this
    {
      forall a, b :: a in cache && b in cache && a != b ==> cache[a] != cache[b]
    }

    /** The value of the cache. */
    function View(): map<string, LogsetView>
      reads this, cache.Values
    {
      map n | n in cache :: cache[n].Value()
    }

    constructor (logsetNameField: string, logNameField: string, logsetNameRemove: Option<string>)
      ensures this.logsetNameField == logsetNameField && this.logNameField == logNameField
      ensures this.logsetNameRemove == logsetNameRemove
      ensures Valid() && cache == map[]
    {
      this.logsetNameField := logsetNameField;
      this.logNameField := logNameField;
      this.logsetNameRemove := logsetNameRemove;
      cache := map[];
    }

    /** populate_logsets: add every listed logset whose name is not cached yet. */
    method PopulateLogsets(remote: Remote) returns (calls: seq<Call>)
      requires Valid()
      modifies this
      ensures Valid()
      ensures calls == [ListLogsets]
      ensures View() == Populated(old(View()), remote.logsets)
      ensures forall n :: n in old(cache) ==> n in cache && cache[n] == old(cache[n])
      ensures forall n :: n in cache && n !in old(cache) ==> fresh(cache[n])
    {
      calls := [ListLogsets];
      var logsets := remote.logsets;
      for i := 0 to |logsets|
        invariant Valid()
        invariant View() == Populated(old(View()), logsets[..i])
        invariant forall n :: n in old(cache) ==> n in cache && cache[n] == old(cache[n])
        invariant forall n :: n in cache && n !in old(cache) ==> fresh(cache[n])
      {
        assert logsets[..i + 1][..i] == logsets[..i];
        var raw := logsets[i];
        if raw.name !in cache {
          AddListed(raw);
        }
      }
      assert logsets[..|logsets|] == logsets;
    }

    /** get_logset, cached under the listed name: the loop body of populate_logsets. */
    method AddListed(raw: RawLogset)
      requires Valid() && raw.name !in cache
      modifies this
      ensures Valid()
      ensures View() == old(View())[raw.name := ViewOf(raw)]
      ensures cache.Keys == old(cache.Keys) + {raw.name}
      ensures forall n :: n in old(cache) ==> cache[n] == old(cache[n])
      ensures fresh(cache[raw.name])
    {
      var logset := new Logset.FromRaw(raw);
      Store(raw.name, logset);
    }

    /**
     * create_logset: a cached name is answered from the cache with no
     * request.  Otherwise the logset is posted; on a 400 answer the cache
     * is refreshed from the listing and the name looked up again, and
     * 'Unable to create logset' is raised when it is still missing.  The
     * created record is not cached here.
     */
    method CreateLogset(name: string, remote: Remote, reply: Reply<LogsetBody>)
      returns (r: Result<Logset, Error>, calls: seq<Call>)
      requires Valid()
      modifies this
      ensures Valid()
      ensures forall n :: n in old(cache) ==> n in cache && cache[n] == old(cache[n])
      ensures forall n :: n in cache && n !in old(cache) ==> fresh(cache[n])
      ensures name in old(cache) ==> r == Ok(old(cache[name])) && calls == [] && cache == old(cache)
      ensures name !in old(cache) && reply.Created? ==>
        r.Ok? && fresh(r.value) && r.value.Value() == LogsetView(reply.body.id, reply.body.name, map[]) &&
        calls == [PostLogset(name)] && cache == old(cache)
      ensures name !in old(cache) && reply.BadRequest? ==>
        calls == [PostLogset(name), ListLogsets] &&
        View() == Populated(old(View()), remote.logsets) &&
        (if name in cache then r == Ok(cache[name]) else r == Err(UnableToCreateLogset))
      ensures name !in old(cache) && reply.Rejected? ==>
        r == Err(RequestFailed) && calls == [PostLogset(name)] && cache == old(cache)
    {
      if name in cache {
        return Ok(cache[name]), [];
      }
      calls := [PostLogset(name)];
      if reply.Created? {
        var logset := new Logset.Empty(reply.body.id, reply.body.name);
        r := Ok(logset);
      } else if reply.BadRequest? {
        var more := PopulateLogsets(remote);
        calls := calls + more;
        if name in cache {
          r := Ok(cache[name]);
        } else {
          r := Err(UnableToCreateLogset);
        }
      } else {
        r := Err(RequestFailed);
      }
    }

    /** The record has both configured fields. */
    predicate HasFields(conv: map<string, string>)
    {
      logsetNameField in conv && logNameField in conv
    }

    /** The cache key get_token resolves: the logset name with the removal string deleted. */
    function LogsetKey(conv: map<string, string>): string
      requires HasFields(conv)
    {
      if logsetNameRemove.Some? then DeleteAll(conv[logsetNameField], logsetNameRemove.value)
      else conv[logsetNameField]
    }

    /**
     * The second half of get_token (test.rb:177-184): find or create the
     * logset named key, cache it, and return the token of its log logName.
     */
    method Resolve(key: string, logName: string, remote: Remote,
                   logsetReply: Reply<LogsetBody>, logReply: Reply<LogBody>)
      returns (r: Result<Option<string>, Error>, calls: seq<Call>)
      requires Valid()
      modifies this, cache.Values
      ensures Valid()
      ensures forall n :: n in old(cache) ==> n in cache
      ensures forall n :: n in cache ==> (n in old(cache) && cache[n] == old(cache[n])) || fresh(cache[n])
      ensures r.Ok? ==>
        key in cache && logName in cache[key].logs && cache[key].logs[logName].Tokened? &&
        r.value == cache[key].logs[logName].token
      ensures key in old(cache) && old(TokenExists(cache[key], Some(logName))) ==>
        r == Ok(old(cache[key].logs[logName].token)) && calls == [] &&
        cache == old(cache) && View() == old(View())
      ensures (r, calls) == Resolution(old(View()), key, logName, remote, logsetReply, logReply)
      ensures key !in old(cache) ==> calls != [] && calls[0] == PostLogset(key)
      ensures key !in old(cache) && logsetReply.Created? ==>
        key in cache && cache[key].id == logsetReply.body.id && cache[key].name == logsetReply.body.name &&
        cache[key].logs == CreatedLogs(logName, logReply)
      ensures key in old(cache) && r.Err? ==> cache[key].logs == old(cache[key].logs)
      ensures forall n :: n in old(cache) && n != key ==>
        cache[n] == old(cache[n]) && cache[n].logs == old(cache[n].logs)
      ensures key in old(cache) ==>
        cache[key] == old(cache[key]) &&
        forall k :: k in old(cache[key].logs) && k != logName ==>
          k in cache[key].logs && cache[key].logs[k] == old(cache[key].logs[k])
      ensures View() == ResolvedView(old(View()), key, logName, remote, logsetReply, logReply)
    {
      if key in cache {
        ghost var view := View();
        r, calls := ResolveLog(key, logName, remote, logReply);
        assert view == old(View());
      } else {
        r, calls := ResolveNew(key, logName, remote, logsetReply, logReply);
      }
    }

    /**
     * get_token for a logset name that is not cached (test.rb:179-184):
     * create_logset, cache the record, then get_or_create_log_token on it.
     */
    method ResolveNew(key: string, logName: string, remote: Remote,
                      logsetReply: Reply<LogsetBody>, logReply: Reply<LogBody>)
      returns (r: Result<Option<string>, Error>, calls: seq<Call>)
      requires Valid() && key !in cache
      modifies this
      ensures Valid()
      ensures forall n :: n in old(cache) ==>
        n in cache && cache[n] == old(cache[n]) && cache[n].logs == old(cache[n].logs)
      ensures forall n :: n in cache && n !in old(cache) ==> fresh(cache[n])
      ensures r.Ok? ==>
        key in cache && logName in cache[key].logs && cache[key].logs[logName].Tokened? &&
        r.value == cache[key].logs[logName].token
      ensures (r, calls) == Resolution(old(View()), key, logName, remote, logsetReply, logReply)
      ensures calls != [] && calls[0] == PostLogset(key)
      ensures logsetReply.Created? ==>
        key in cache && cache[key].id == logsetReply.body.id && cache[key].name == logsetReply.body.name &&
        cache[key].logs == CreatedLogs(logName, logReply)
      ensures View() == ResolvedView(old(View()), key, logName, remote, logsetReply, logReply)
    {
      ghost var view := View();
      var created;
      created, calls := CacheNewLogset(key, remote, logsetReply);
      if created.Err? {
        return Err(created.error), calls;
      }
      ghost var found := View();
      assert found == WithLogset(view, key, remote, logsetReply);
      assert !HasCachedToken(found, key, logName);
      var more;
      r, more := ResolveLog(key, logName, remote, logReply);
      calls := calls + more;
      assert r == PostedToken(logReply);
      if logsetReply.Created? {
        assert calls == [PostLogset(key), ListLogs, PostLog(logsetReply.body.id, logName)];
      } else {
        assert calls == [PostLogset(key), ListLogsets, ListLogs, PostLog(Populated(view, remote.logsets)[key].id, logName)];
      }
    }

    /**
     * The last step of get_token (test.rb:184): get_or_create_log_token on
     * the record cached under key, and the token of the entry it returns.
     */
    method ResolveLog(key: string, logName: string, remote: Remote, logReply: Reply<LogBody>)
      returns (r: Result<Option<string>, Error>, calls: seq<Call>)
      requires Valid() && key in cache
      modifies cache[key]
      ensures View() == old(View())[key := WithLogToken(old(View())[key], logName, logReply)]
      ensures HasCachedToken(old(View()), key, logName) ==>
        r == Ok(old(View())[key].logs[logName].token) && calls == []
      ensures !HasCachedToken(old(View()), key, logName) ==>
        r == PostedToken(logReply) && calls == [ListLogs, PostLog(old(View())[key].id, logName)]
      ensures r.Ok? ==>
        logName in cache[key].logs && cache[key].logs[logName].Tokened? &&
        r.value == cache[key].logs[logName].token
      ensures forall k :: k in old(cache[key].logs) && k != logName ==>
        k in cache[key].logs && cache[key].logs[k] == old(cache[key].logs[k])
      ensures forall n :: n in cache && n != key ==> cache[n].logs == old(cache[n].logs)
      ensures r.Err? ==> cache[key].logs == old(cache[key].logs)
    {
      var logset := cache[key];
      ghost var view := View();
      assert view[key] == logset.Value();
      var entry, more := GetOrCreateLogToken(logset, logName, remote, logReply);
      calls := more;
      if entry.Err? {
        r := Err(entry.error);
      } else {
        r := Ok(entry.value.token);
      }
      assert View() == view[key := logset.Value()];
    }

    /**
     * The miss branch of get_token (test.rb:179-182): create_logset for an
     * uncached name, and cache the record it returns under that name.
     * The record has no log with a token yet.
     */
    method CacheNewLogset(key: string, remote: Remote, logsetReply: Reply<LogsetBody>)
      returns (r: Result<Logset, Error>, calls: seq<Call>)
      requires Valid() && key !in cache
      modifies this
      ensures Valid()
      ensures forall n :: n in old(cache) ==> n in cache && cache[n] == old(cache[n])
      ensures forall n :: n in cache && n !in old(cache) ==> fresh(cache[n])
      ensures r.Ok? ==>
        key in cache && cache[key] == r.value && r.value.Value() == View()[key] &&
        forall n :: n in r.value.logs ==> !r.value.logs[n].Tokened?
      ensures logsetReply.Created? ==>
        r.Ok? && r.value.id == logsetReply.body.id && r.value.name == logsetReply.body.name &&
        calls == [PostLogset(key)]
      ensures logsetReply.BadRequest? ==>
        var refreshed := Populated(old(View()), remote.logsets);
        calls == [PostLogset(key), ListLogsets] &&
        (key in refreshed ==> r.Ok? && r.value.id == refreshed[key].id) &&
        (key !in refreshed ==> r == Err(UnableToCreateLogset))
      ensures logsetReply.Rejected? ==> r == Err(RequestFailed) && calls == [PostLogset(key)]
      ensures View() == WithLogset(old(View()), key, remote, logsetReply)
    {
      ghost var view := View();
      r, calls := CreateLogset(key, remote, logsetReply);
      if !logsetReply.BadRequest? {
        assert View() == view;
      }
      if r.Err? {
        return;
      }
      if logsetReply.BadRequest? {
        assert View()[key] == r.value.Value();
        PopulatedAddsNoToken(view, remote.logsets, key);
      }
      Store(key, r.value);
    }

    /** @cache[name] = logset (test.rb:181), for a record not cached under another name. */
    method Store(name: string, logset: Logset)
      requires Valid()
      requires forall n :: n in cache && n != name ==> cache[n] != logset
      modifies this
      ensures Valid()
      ensures cache == old(cache)[name := logset]
      ensures View() == old(View())[name := logset.Value()]
    {
      cache := cache[name := logset];
    }

    /**
     * get_token: nil for a record lacking either configured field, with
     * no request and the cache unchanged.  Otherwise the token of the
     * logset name (with the removal string deleted) and the log name,
     * as Resolve finds or creates it.
     */
    method GetToken(tag: string, record: seq<(Key, string)>, remote: Remote,
                    logsetReply: Reply<LogsetBody>, logReply: Reply<LogBody>)
      returns (r: Result<Option<string>, Error>, calls: seq<Call>)
      requires Valid()
      modifies this, cache.Values
      ensures Valid()
      ensures forall n :: n in old(cache) ==> n in cache
      ensures forall n :: n in cache ==> (n in old(cache) && cache[n] == old(cache[n])) || fresh(cache[n])
      ensures !HasFields(Stringified(record)) ==>
        r == Ok(None) && calls == [] && cache == old(cache) && View() == old(View())
      ensures HasFields(Stringified(record)) ==>
        var conv := Stringified(record);
        var key := LogsetKey(conv);
        var logName := conv[logNameField];
        && (r, calls) == Resolution(old(View()), key, logName, remote, logsetReply, logReply)
        && (r.Ok? ==>
              key in cache && logName in cache[key].logs && cache[key].logs[logName].Tokened? &&
              r.value == cache[key].logs[logName].token)
        && (key in old(cache) && old(TokenExists(cache[key], Some(logName))) ==>
              r == Ok(old(cache[key].logs[logName].token)) && calls == [] &&
              cache == old(cache) && View() == old(View()))
        && (key !in old(cache) ==> calls != [] && calls[0] == PostLogset(key))
        && (forall n :: n in old(cache) && n != key ==>
              cache[n] == old(cache[n]) && cache[n].logs == old(cache[n].logs))
        && (key in old(cache) ==>
              cache[key] == old(cache[key]) &&
              forall k :: k in old(cache[key].logs) && k != logName ==>
                k in cache[key].logs && cache[key].logs[k] == old(cache[key].logs[k]))
        && View() == ResolvedView(old(View()), key, logName, remote, logsetReply, logReply)
    {
      var conv := TransformKeys(record);
      assert View() == old(View());
      if !(logsetNameField in conv && logNameField in conv) {
        return Ok(None), [];
      }
      var logName := conv[logNameField];
      var logsetName := conv[logsetNameField];
      if logsetNameRemove.Some? {
        logsetName := DeleteAll(logsetName, logsetNameRemove.value);
      }
      assert logsetName == LogsetKey(conv);
      r, calls := Resolve(logsetName, logName, remote, logsetReply, logReply);
    }

    /**
     * The inner loop of delete_deplicate_logs for one logset: for every
     * cached log name, the listed logs of that name whose id is not the
     * cached one.
     */
    method LogsetDuplicateIds(logs: map<string, LogEntry>, info: seq<LogInfo>) returns (found: set<string>)
      ensures found == LogsetDuplicates(logs, info)
    {
      var logNames := logs.Keys;
      found := {};
      while logNames != {}
        invariant logNames <= logs.Keys
        invariant found == set e | e in info && e.name in logs && e.name !in logNames &&
          e.id != logs[e.name].id :: e.id
        decreases logNames
      {
        var logName :| logName in logNames;
        var named := DuplicatesOf(info, logName, logs[logName].id);
        found := found + set e | e in named :: e.id;
        logNames := logNames - {logName};
      }
    }

    /**
     * delete_deplicate_logs: for every cached logset, fetch its listing
     * and, for every cached log name, pick the listed logs of that name
     * whose id is not the cached one.  The cache is only read.
     */
    method DeleteDuplicateLogs(remote: Remote) returns (r: Result<set<string>, Error>)
      ensures r == SweepTargets(View(), remote.logsets)
    {
      var pending := cache.Keys;
      var deleted: set<string> := {};
      while pending != {}
        invariant pending <= cache.Keys
        invariant forall n :: n in cache && n !in pending ==> LogsetById(remote.logsets, cache[n].id).Some?
        invariant deleted == set n, d | n in cache && n !in pending &&
          d in LogsetDuplicates(cache[n].logs, LogsetById(remote.logsets, cache[n].id).value.logsInfo) :: d
        decreases pending
      {
        var name :| name in pending;
        var logset := cache[name];
        var listed := LogsetById(remote.logsets, logset.id);
        if listed.None? {
          assert name in View() && LogsById(View(), remote.logsets, name).None?;
          assert !AllListed(View(), remote.logsets);
          return Err(RequestFailed);
        }
        var found := LogsetDuplicateIds(logset.logs, listed.value.logsInfo);
        deleted := deleted + found;
        pending := pending - {name};
      }
      ghost var view := View();
      assert forall n :: n in view ==> view[n] == cache[n].Value();
      assert AllListed(view, remote.logsets);
      forall d ensures d in deleted <==> d in SweepSet(view, remote.logsets) {
        if d in deleted {
          var n :| n in cache && d in LogsetDuplicates(cache[n].logs, LogsetById(remote.logsets, cache[n].id).value.logsInfo);
          assert n in view && d in LogsetDuplicates(view[n].logs, LogsById(view, remote.logsets, n).value.logsInfo);
        }
        if d in SweepSet(view, remote.logsets) {
          var n :| n in view && d in LogsetDuplicates(view[n].logs, LogsById(view, remote.logsets, n).value.logsInfo);
          assert n in cache && n !in pending;
        }
      }
      assert deleted == SweepSet(view, remote.logsets);
      r := Ok(deleted);
    }
  }

  /**
   * Resolution is cached: once get_token has resolved a record to a
   * token, resolving a record with the same field values again returns the
   * same token without any request to the service.  (The in-place gsub!
   * of get_token is not modelled, so the second record is the unmodified
   * one, not the one the first call mutated.)
   */
  method GetTokenTwice(resolver: Resolver, tag: string, record: seq<(Key, string)>, remote: Remote,
                       logsetReply: Reply<LogsetBody>, logReply: Reply<LogBody>)
    returns (first: Result<Option<string>, Error>, second: Result<Option<string>, Error>,
             secondCalls: seq<Call>)
    requires resolver.Valid()
    modifies resolver, resolver.cache.Values
    ensures first.Ok? ==> second == first && secondCalls == []
  {
    var firstCalls;
    first, firstCalls := resolver.GetToken(tag, record, remote, logsetReply, logReply);
    second, secondCalls := resolver.GetToken(tag, record, remote, logsetReply, logReply);
  }
}

=== FILE: wrappers.dfy ===
/** Optional values (Ruby's nil) and results that carry a raised error. */
module Wrappers {

  datatype Option<+T> = None | Some(value: T)

  datatype Result<+T, +E> = Ok(value: T) | Err(error: E)
}
